=== FILE: README.md ===
# redis-extension cache engine, in Dafny

A model of `RedisCache`, the cache-access layer of the `DistributedCache.Redis`
library, and of the `AddRedisCache` registration helpers that build its
options. The Redis server is replaced by an in-memory store with two parts:

- a string map `physical key -> (payload, TTL in minutes)`;
- a hash map `physical key -> (field -> payload, optional TTL in minutes)`.

Every cache operation is a pure function. It takes a cache, a store and the
call's arguments, and returns the call's answer together with the store after
it. A C# exception is an `Err` carrying the exception kind
(`InvalidArgument`, `NullReference`, `MalformedJson`, `NotSupported`). A C# null is `None`.
Cached values are `Option<V>`, with `None` standing for a null reference.

Files:

- `wrappers.dfy`: `Option`, `Result`, `int32` and the error kinds.
- `text.dfy`: `char.IsWhiteSpace`, `string.IsNullOrWhiteSpace`, `Trim`,
  `Split(char)` with its inverse `Join`, and ASCII `ToLower`.
- `key_codec.dfy`: `AddNamespaceToKey` and its inverse `StripNamespace`.
- `serialization.dfy`: serializer options as data; the JSON engine as a pair
  of functions passed to the cache.
- `store.dfy`: the in-memory store and the commands the cache issues.
- `configuration.dfy`: `RedisOptions`, `RedisConfiguration`, endpoint parsing
  and `GetOptions`.
- `redis_cache.dfy`: the constructor and every plain-key and hash-field
  operation.
- `registration.dfy`: the two `AddRedisCache` overloads.
- `cache_properties.dfy`: properties that span several operations.

The answers a server gives to writes are parameters, not derived from Redis:

- `WriteReply` is `Stored(flag)` or `Refused`. `Stored(false)` covers HSET
  overwriting an existing field.
- `expireApplied` is the answer to the expiry refresh after a hash write.

The value the caller's producer computes is the parameter `produced`. The
synchronous `Set`/`HashSet` take a producer delegate and serialise the
delegate itself, and the synchronous `GetOrSet`/`HashGetOrSet` hand theirs to
them. The serialiser's answer for the delegate is the parameter
`producerPayload`: either an error (System.Text.Json refuses delegates with
`NotSupportedException`) or the text it would write.

## Model

| member | source | states |
|---|---|---|
| KeyCodec.AddNamespaceToKey | DistributedCache.Redis/RedisCache.cs:240-248 | A null, empty or whitespace key throws `ArgumentException`, and only such a key does. Otherwise the physical key is the namespace, then `:`, then the key (a null namespace renders as nothing). |
| KeyCodec.StripAfterAdd | DistributedCache.Redis/RedisCache.cs:247 | Every accepted key is recovered from its physical key by `StripNamespace`. |
| KeyCodec.AddAfterStrip | DistributedCache.Redis/RedisCache.cs:247 | Every physical key that `StripNamespace` accepts is what `AddNamespaceToKey` makes of the recovered key, so the two are inverse within one namespace. |
| KeyCodec.KeysDoNotCollide | DistributedCache.Redis/RedisCache.cs:247 | Distinct logical keys get distinct physical keys. |
| KeyCodec.NamespacesIsolate | DistributedCache.Redis/RedisCache.cs:247 | Two different namespaces without `:` never produce the same physical key. |
| KeyCodec.SeparatorIsNotEscaped | DistributedCache.Redis/RedisCache.cs:247 | The separator is not escaped: namespace `a` with key `b:c` collides with namespace `a:b` with key `c`. |
| Text.Split | DistributedCache.Redis/RedisCache.cs:268 | `Split(',')` yields one piece more than there are commas, and no piece contains a comma. |
| Text.JoinSplit | DistributedCache.Redis/RedisCache.cs:268 | Joining the pieces with the separator restores the string. |
| Text.SplitJoin | DistributedCache.Redis/RedisCache.cs:268 | Splitting a join of separator-free pieces returns the pieces, in order. |
| Text.Trim | DistributedCache.Redis/RedisCache.cs:269 | `Trim` returns a string that neither starts nor ends with whitespace, no longer than its input and made only of the input's characters. |
| Text.TrimCutsPadding | DistributedCache.Redis/RedisCache.cs:269 | The result of `Trim` is a contiguous piece of the input with only whitespace before and after it. |
| Text.TrimOfPadded | DistributedCache.Redis/RedisCache.cs:269 | `Trim(before + core + after)` is `core` whenever `before` and `after` are blank and `core` is unpadded; this determines `Trim` completely. |
| Text.TrimIdempotent | DistributedCache.Redis/RedisCache.cs:269 | Trimming twice equals trimming once. |
| Text.TrimEmptyIffBlank | DistributedCache.Redis/RedisCache.cs:242 | `Trim` gives the empty string exactly for the strings `IsNullOrWhiteSpace` rejects. |
| Text.ToLower | DistributedCache.Redis/Extensions/ServiceCollectionExtensions.cs:23 | The result has no ASCII capital letter and equals the input up to case. Characters that are not capitals are untouched. |
| Text.ToLowerIdempotent | DistributedCache.Redis/Extensions/ServiceCollectionExtensions.cs:23 | Lower-casing twice equals lower-casing once. |
| Configuration.ParseEndpoints | DistributedCache.Redis/RedisCache.cs:268-269 | There is one endpoint more than there are commas in `HostAndPorts`. No endpoint contains a comma or surrounding whitespace. |
| Configuration.ParseJoinedEndpoints | DistributedCache.Redis/RedisCache.cs:268-269 | A comma-joined list of comma-free pieces, padded or not, parses to those pieces each trimmed, in the same order. |
| Configuration.ParseJoinedTrimmedEndpoints | DistributedCache.Redis/RedisCache.cs:268-269 | A comma-joined list of unpadded, comma-free endpoints parses back to the same list in the same order. |
| Configuration.SpaceAfterCommaIsTrimmed | DistributedCache.Redis/RedisCache.cs:268-269 | A setting written with a space after the comma, such as `"a:1, b:2"`, gives the two endpoints without the space. |
| Configuration.EndpointsJoinBack | DistributedCache.Redis/RedisCache.cs:268-269 | Without whitespace in the setting, joining the endpoints with commas gives the setting back: nothing dropped, added or reordered. |
| Configuration.AddEndpoints | DistributedCache.Redis/RedisCache.cs:268-269 | Adding the pieces one by one succeeds exactly when, together with the endpoints already present, none is empty and none is repeated. The collection then holds the pieces in order; otherwise `ArgumentException` is thrown. |
| Configuration.JoinedEndpointsAdmission | DistributedCache.Redis/RedisCache.cs:268-269 | For a comma-joined list of unpadded endpoints, `GetOptions` succeeds exactly when the endpoints are non-empty and distinct. It then connects to exactly those endpoints in order, and otherwise throws `ArgumentException`. |
| Configuration.EmptySettingThrows | DistributedCache.Redis/RedisCache.cs:268-269 | An empty `HostAndPorts` throws `ArgumentException`. |
| Configuration.TrailingCommaThrows | DistributedCache.Redis/RedisCache.cs:268-269 | An endpoint followed by a trailing comma throws `ArgumentException`, because of the empty last piece. |
| Configuration.RepeatedEndpointThrows | DistributedCache.Redis/RedisCache.cs:268-269 | The same endpoint listed twice throws `ArgumentException`. |
| Configuration.GetOptions | DistributedCache.Redis/RedisCache.cs:250-272 | The connection settings are copied from the configuration, and the config check is 10 seconds. The cluster command map is present exactly in cluster mode. A null `HostAndPorts` throws `NullReferenceException`. Otherwise the call fails exactly when a parsed endpoint is empty or repeated, with `ArgumentException`, and on success the endpoints are the parsed `HostAndPorts`. |
| RedisCache.New | DistributedCache.Redis/RedisCache.cs:19-50 | A null configuration throws `ArgumentException`. Malformed JSON throws `JsonException` and a JSON null throws `NullReferenceException`. A `GetOptions` failure is passed on. Outside cluster mode, a `DatabaseNumber` below -1 throws `ArgumentException`, as `GetDatabase` does. Otherwise the cache keeps the caller's namespace, its serializer options, the given JSON engine and the options `GetOptions` builds. It selects the default database in cluster mode and `DatabaseNumber` otherwise. |
| RedisCache.Get | DistributedCache.Redis/RedisCache.cs:169-173 | `Get`/`GetAsync`: a blank key throws. An absent or empty payload reads as null. Any other payload is deserialised, and a malformed one throws `JsonException`. The store is never modified. |
| RedisCache.SetPayload | DistributedCache.Redis/RedisCache.cs:175-184 | An empty payload returns false and leaves the store unchanged, even for a blank key. Otherwise a blank key throws. A valid key gets the payload with TTL `expirationMinutes` exactly when the store applies the write. The store's flag is returned, and hashes and other keys are unchanged. |
| RedisCache.Set | DistributedCache.Redis/RedisCache.cs:175-184 | `SetAsync` throws exactly when the serialisation is non-empty and the key is blank. After a reported success, `Get` returns the decoded serialisation of the value. A refused write leaves the store unchanged. `expirationMinutes` defaults to 60, as on every write. |
| RedisCache.Delete | DistributedCache.Redis/RedisCache.cs:186-189 | `Delete`/`DeleteAsync` remove the namespaced key from both maps and answer whether it existed. A blank key throws. |
| RedisCache.Exists | DistributedCache.Redis/RedisCache.cs:191-194 | `Exists`/`ExistsAsync` answer whether the namespaced key holds a string or a hash. A blank key throws. |
| RedisCache.GetOrSet | DistributedCache.Redis/RedisCache.cs:155-167 | `GetOrSetAsync`: a failing read fails the call. A non-null read is returned with zero producer calls and the store unchanged. A null read runs the producer once, and the store becomes exactly what `SetAsync` of the produced value leaves. The produced value is returned whatever the write answered. |
| RedisCache.SetSync | DistributedCache.Redis/RedisCache.cs:215-224 | Synchronous `Set`: the delegate is serialised before the key is checked, so a refused serialisation throws that error even for a blank key and writes nothing. Otherwise the call fails exactly for a non-empty text with a blank key, with `ArgumentException`. A reported success leaves the delegate's text under the namespaced key with TTL `expirationMinutes`; a refused write changes nothing. Any successful call leaves the hashes and every other string key unchanged, and with a payload the call is exactly `SetAsync`'s write of that text. |
| RedisCache.GetOrSetSync | DistributedCache.Redis/RedisCache.cs:196-224 | Synchronous `GetOrSet` as written, with the same hit rule. On a miss the delegate is serialised before the producer runs. If the serialiser refuses it, the call throws that error and writes nothing. Otherwise the delegate's text (`producerPayload`) is written in place of the value, and the produced value is returned. |
| RedisCache.HashGet | DistributedCache.Redis/RedisCache.cs:71-76 | `HashGet`/`HashGetAsync`: a blank key throws. An absent or empty field reads as null, and any other field is deserialised. |
| RedisCache.HashSetPayload | DistributedCache.Redis/RedisCache.cs:78-93 | An empty payload returns false and leaves the store unchanged; otherwise a blank key throws. For a valid key, only `field` of the namespaced key is written, and strings, other keys and other fields are unchanged. The expiry is reset to `expirationMinutes` only when the field write answered true and the store applied it. The returned value is the field write's flag. |
| RedisCache.HashSet | DistributedCache.Redis/RedisCache.cs:78-93 | `HashSetAsync` throws exactly for a non-empty serialisation with a blank key. After a reported success, `HashGet` returns the decoded value and the key's TTL is refreshed exactly when the expiry was applied. |
| RedisCache.HashDelete | DistributedCache.Redis/RedisCache.cs:95-98 | `HashDeleteAsync` removes one field of the namespaced key and answers whether it existed. The key disappears with its last field, and everything else is unchanged. A blank key throws. |
| RedisCache.HashExists | DistributedCache.Redis/RedisCache.cs:100-103 | `HashExistsAsync` answers whether the namespaced key has the field. A blank key throws. |
| RedisCache.HashDeleteAsWritten | DistributedCache.Redis/RedisCache.cs:141-144 | The synchronous `HashDelete` addresses the raw key and does no blank-key check. It removes `field` from that raw key's hash and answers whether the field was there. Only that raw key's hash changes. |
| RedisCache.HashExistsAsWritten | DistributedCache.Redis/RedisCache.cs:146-149 | The synchronous `HashExists` looks the field up under the raw key. |
| RedisCache.HashGetOrSet | DistributedCache.Redis/RedisCache.cs:57-69 | `HashGetOrSetAsync`: a hit returns the cached value with zero producer calls and the store unchanged. A miss runs the producer once and writes through `HashSetAsync`. |
| RedisCache.HashSetSync | DistributedCache.Redis/RedisCache.cs:124-139 | Synchronous `HashSet`: a refused delegate serialisation throws that error even for a blank key and writes nothing. Otherwise the call fails exactly for a non-empty text with a blank key, with `ArgumentException`. A reported success leaves the namespaced key's fields as before with `field` set to the delegate's text, the TTL refreshed exactly when the expiry was applied. When HSET answers false (an overwrite), the call returns false, the field still holds the new text and the TTL is not touched. A refused write changes nothing. Any successful call leaves the strings and every other hash key unchanged, and with a payload the call is exactly `HashSetAsync`'s write of that text. |
| RedisCache.HashGetOrSetSync | DistributedCache.Redis/RedisCache.cs:105-139 | Synchronous `HashGetOrSet` as written. On a miss, a refused delegate serialisation throws and writes nothing. Otherwise the delegate's text is written to the field, and the produced value is returned. |
| ServiceCollectionExtensions.DeriveNamespace | DistributedCache.Redis/Extensions/ServiceCollectionExtensions.cs:23 | The namespace is the environment name lower-cased (same length, no capitals, equal up to case), followed by `.ares.com`. |
| ServiceCollectionExtensions.AddRedisCache | DistributedCache.Redis/Extensions/ServiceCollectionExtensions.cs:11-31 | The registered options hold the serialised default configuration, the derived namespace, the database number as given (0 when omitted) and the default serializer options. An empty serialisation throws `ArgumentException` and registers nothing. |
| ServiceCollectionExtensions.AddRedisCacheWith | DistributedCache.Redis/Extensions/ServiceCollectionExtensions.cs:33-44 | The callback fills a fresh `RedisOptions`. Validation sees exactly what the callback left: a null or empty configuration throws, and otherwise those options are registered. |
| CacheProperties.CallbackKeepsFreshDefaults | DistributedCache.Redis/RedisOptions.cs:7-13 | A callback that sets only the configuration registers options with no namespace, database 0 and the null-ignoring serializer options of `new RedisOptions()`. For a parseable, non-cluster configuration the cache is built on database 0, uses those serializer options, and its physical key for a valid key is `:` followed by the key. |
| CacheProperties.SetThenGet | DistributedCache.Redis/RedisCache.cs:169-184 | For a value whose JSON round-trips, a stored `SetAsync` answers true and the next `Get` returns the value. |
| CacheProperties.SetLeavesOtherKeys | DistributedCache.Redis/RedisCache.cs:175-184 | A write to one key changes no other key's `Get` or `Exists`. |
| CacheProperties.DeleteThenAbsent | DistributedCache.Redis/RedisCache.cs:186-194 | After `Delete`, the key does not exist, reads as null, and every field of it reads as null. |
| CacheProperties.HashFieldIsolation | DistributedCache.Redis/RedisCache.cs:71-93 | Writing field f2 leaves field f1's value readable. The whole key exists after either write. |
| CacheProperties.GetOrSetPopulates | DistributedCache.Redis/RedisCache.cs:155-173 | On a miss the producer runs once, and when the write succeeds the next `Get` returns the produced value. |
| CacheProperties.GetOrSetSecondCallHits | DistributedCache.Redis/RedisCache.cs:155-167 | After a non-null value is cached, the next `GetOrSetAsync` with any producer returns it, runs no producer and leaves the store unchanged. |
| CacheProperties.NullResultIsNeverAHit | DistributedCache.Redis/RedisCache.cs:158-166 | A producer result of null is written, but the next call is again a miss that runs the producer. |
| CacheProperties.HashGetOrSetPopulates | DistributedCache.Redis/RedisCache.cs:57-76 | `HashGetOrSetAsync` fills a missing field so that `HashGet` returns it. The next call is a hit with no producer call and no store change. |
| CacheProperties.BlankKeyTouchesNothing | DistributedCache.Redis/RedisCache.cs:240-248 | With a blank key, every namespaced operation leaves the store unchanged. Reads, deletes, existence checks and all four get-or-set calls throw `ArgumentException`. A write with an empty payload returns false instead. The synchronous `Set`/`HashSet` throw the serialiser's exception (`NotSupportedException`) when it refuses the delegate, and otherwise behave as the asynchronous writes. |
| CacheProperties.RefreshFailureLeavesKeyWithoutExpiry | DistributedCache.Redis/RedisCache.cs:86-92 | A hash write whose expiry refresh was not applied still reports true, and a key it created has no TTL. |
| CacheProperties.OverwriteKeepsExpiry | DistributedCache.Redis/RedisCache.cs:86-92 | When HSET answers false (an overwrite), the expiry is not refreshed and the call returns false. |
| CacheProperties.HashDeleteThenAbsent | DistributedCache.Redis/RedisCache.cs:95-103 | After the namespaced `HashDelete`, the field neither exists nor reads as anything. |
| CacheProperties.HashSetThenHashExists | DistributedCache.Redis/RedisCache.cs:78-103 | After `HashSetAsync` reports success, `HashExistsAsync` on the same key and field answers true. |
| CacheProperties.SetExpiresAfterAnHourByDefault | DistributedCache.Redis/RedisCache.cs:175-184 | A `SetAsync` without `expirationMinutes` stores the payload with a TTL of 60 minutes. |
| CacheProperties.SyncSetThenGet | DistributedCache.Redis/RedisCache.cs:209-224 | After the synchronous `Set` of a non-empty delegate text reports success, `Get` returns that text decoded, not the producer's value. |
| CacheProperties.SyncHashSetThenHashGet | DistributedCache.Redis/RedisCache.cs:118-139 | After the synchronous `HashSet` of a non-empty delegate text reports success, `HashExists` finds the field and `HashGet` returns that text decoded. |
| CacheProperties.SyncSetSerialisesBeforeKeyCheck | DistributedCache.Redis/RedisCache.cs:124-132 | The synchronous `HashSet` here, and the synchronous `Set` at lines 215-223 in the same way, serialise before the key check. With a blank key, the synchronous `Set`/`HashSet` fail with the serialiser's `NotSupportedException` when it refuses the delegate, where `SetAsync`/`HashSetAsync` of a value fail with `ArgumentException`. |
| CacheProperties.SyncHashExistsIgnoresCacheWrites | DistributedCache.Redis/RedisCache.cs:78-149 | The synchronous `HashExists` gives the same answer after any successful `HashSetAsync` as before it: it never sees a field the cache writes. |
| CacheProperties.SyncHashDeleteMissesCachedField | DistributedCache.Redis/RedisCache.cs:141-144 | A field the cache stored still exists after the synchronous `HashDelete` of the same key and field. |
| CacheProperties.SyncHashExistsMissesCachedField | DistributedCache.Redis/RedisCache.cs:146-149 | The synchronous `HashExists` answers false for a field the cache stored, unless a hash exists under the raw key. |
| CacheProperties.SyncGetOrSetIgnoresProducedValue | DistributedCache.Redis/RedisCache.cs:196-224 | On a miss, synchronous `GetOrSet` never caches what the producer computes. If the serialiser refuses the delegate, the call fails for every producer, where `GetOrSetAsync` succeeds. If it does produce a payload, the store is the same whatever the producer computes, so of two different values at least one is not what `Get` returns next. |
| CacheProperties.SyncHashGetOrSetIgnoresProducedValue | DistributedCache.Redis/RedisCache.cs:105-139 | The same holds for synchronous `HashGetOrSet` against `HashGetOrSetAsync` and `HashGet`. |
| CacheProperties.EnvironmentRegistrationEndToEnd | DistributedCache.Redis/Extensions/ServiceCollectionExtensions.cs:11-31 | When the configuration JSON round-trips, the environment overload yields a cache exactly when the database number is at least -1; otherwise it throws `ArgumentException`. That cache is on `localhost:6379` with admin allowed, 3 retries, a 10000 ms connect timeout, no cluster map and the requested database. Its physical keys are `lower(env) + ".ares.com:" + key`. |
| CacheProperties.DefaultRegistrationUsesDatabaseZero | DistributedCache.Redis/Extensions/ServiceCollectionExtensions.cs:11 | Registering an environment without a database number builds a cache on database 0. |
| CacheProperties.DefaultEndpoints | DistributedCache.Redis/Extensions/ServiceCollectionExtensions.cs:20 | The default `HostAndPorts` parses to the single endpoint `localhost:6379`. |
| CacheProperties.DefaultConnectionOptions | DistributedCache.Redis/Extensions/ServiceCollectionExtensions.cs:14-21 | The default configuration is accepted by `GetOptions`. The password is null, admin is allowed, there are 3 retries, a 10000 ms connect timeout, keep-alive and sync timeout 0, a 10-second config check, no command map and the single endpoint `localhost:6379`. |
| CacheProperties.EnvironmentPhysicalKey | DistributedCache.Redis/Extensions/ServiceCollectionExtensions.cs:23 | With the derived namespace, a valid key's physical key is `lower(env) + ".ares.com:" + key`. |
| CacheProperties.SessionScenario | DistributedCache.Redis/RedisCache.cs:175-194 | On namespace `prod.example.com`, a value set under `session:42` reads back. Deleting it answers true, and afterwards the key does not exist. |

## Findings

| source | as written | input that shows it | evidently intended | confidence | as-written member | corrected member |
|---|---|---|---|---|---|---|
| DistributedCache.Redis/RedisCache.cs:141-144 | The synchronous `HashDelete` passes the raw key, without the namespace and without the blank-key check. | `HashSetAsync("a", "f", v)` and then `HashDelete("a", "f")`: the field stored under `ns:a` survives and the call answers false. | Delete `ns:a`/`f`, as `HashDeleteAsync` does. | high, not executed | `RedisCache.HashDeleteAsWritten`, shown by `CacheProperties.SyncHashDeleteMissesCachedField` | `RedisCache.HashDelete`, with `CacheProperties.HashDeleteThenAbsent` |
| DistributedCache.Redis/RedisCache.cs:146-149 | The synchronous `HashExists` passes the raw key. | `HashSetAsync("a", "f", v)` and then `HashExists("a", "f")` answers false. | Look up `ns:a`/`f`, as `HashExistsAsync` does. | high, not executed | `RedisCache.HashExistsAsWritten`, shown by `CacheProperties.SyncHashExistsMissesCachedField` and `CacheProperties.SyncHashExistsIgnoresCacheWrites` | `RedisCache.HashExists`, with `CacheProperties.HashSetThenHashExists` |
| DistributedCache.Redis/RedisCache.cs:196-224 | On a miss, the synchronous `GetOrSet` passes the `Func<T>` to `Set`, which serialises the delegate before the producer runs, not the producer's result. | `GetOrSet("k", () => "x")` on an empty cache: System.Text.Json refuses to serialise a delegate, so the call throws `NotSupportedException`, and `"x"` is never cached. | Run the producer and write its value, as `GetOrSetAsync` does. | high that the value is never cached, not executed | `RedisCache.GetOrSetSync`, shown by `CacheProperties.SyncGetOrSetIgnoresProducedValue` | `RedisCache.GetOrSet`, with `CacheProperties.GetOrSetPopulates` |
| DistributedCache.Redis/RedisCache.cs:105-139 | On a miss, the synchronous `HashGetOrSet` passes the `Func<T>` to `HashSet`, which serialises the delegate. | `HashGetOrSet("k", "f", () => "x")` on an empty cache throws `NotSupportedException` from the serialiser, and field `f` is never written. | Run the producer and write its value, as `HashGetOrSetAsync` does. | high that the value is never cached, not executed | `RedisCache.HashGetOrSetSync`, shown by `CacheProperties.SyncHashGetOrSetIgnoresProducedValue` | `RedisCache.HashGetOrSet`, with `CacheProperties.HashGetOrSetPopulates` |

For the last two rows, the serialiser's answer for a delegate is a
parameter. Current System.Text.Json throws `NotSupportedException`, so the
call fails on every miss. The model also covers a serialiser that writes some
text for the delegate. In both cases the produced value is never cached.

## Left out

- The lazy connection, its lock and reconnect-on-failure (`RedisCache.cs` lines 25-48) are not modelled. They exist for thread safety and rest on the client library's `ConnectionMultiplexer`. `RedisCache.New` treats the connection as made: it keeps the options that would be used to connect and then models the `GetDatabase` check that follows, but a failed connect is not modelled.
- JSON is not modelled. The value serialiser is the `Json<V>` pair of functions and the configuration JSON is the `parse` / `serializeConfiguration` parameters. Round-trip facts appear only as `requires` on the lemmas that need them. Value serialisation is total: a serialiser that throws for a cyclic or unsupported value type is not modelled. The one exception is the producer delegate of the synchronous cache-aside calls, whose serialisation may fail.
- RedisCache.GetOrSet: only reference (nullable) value types are modelled. For a non-nullable `T`, `result != null` always holds, so a miss returns `default(T)` and never calls the producer.
- RedisCache.HashGetOrSet: the same holds for its `result != null` test (`RedisCache.cs` line 60); only nullable value types are modelled.
- The producer cannot throw or suspend. It is represented by the value it computes and by the `producerCalls` count.
- Redis keeps strings and hashes in one keyspace and answers WRONGTYPE when a command meets the other type. The model keeps two independent maps: `Delete`/`Exists` look at both, and a string write does not remove a hash of the same name.
- Expiry is data only. No clock runs and nothing is evicted. The conversion to a `TimeSpan` is not modelled.
- RedisCache.SetPayload: a non-positive `expirationMinutes` is stored as the TTL. Redis rejects SETEX with a non-positive expiry, so there `Set`/`SetAsync` would throw a server error and write nothing. The model has no server errors.
- RedisCache.HashSetPayload: a non-positive `expirationMinutes` is stored as the hash's TTL. Redis EXPIRE with a non-positive TTL deletes the key at once, so the field just written would be gone.
- Configuration.GetOptions: only empty and textually repeated endpoints are refused. The client library also throws `ArgumentException` for a piece that is not `host[:port]` (a port out of range, say). It also throws for two spellings of the same endpoint. Its endpoint parser is not modelled.
- RedisCache.New: a database number at or beyond the server's database count is accepted. Redis refuses it only when the first command selects it, and that is not modelled.
- `ExpireHash` applies the expiry to the hash entry only. The cache issues EXPIRE only right after writing that key as a hash.
- The synchronous and asynchronous variants share one definition wherever their code is the same. There are no suspension points, and the unused `Func<T>` parameter of the synchronous `HashGet` is dropped. Where the code differs (`Set`, `HashSet`, `GetOrSet` and `HashGetOrSet`, which take a delegate), the synchronous variant has its own definition.
- The static `_redisOptions` shared by all instances (`RedisCache.cs` line 21) is not modelled. Each `Cache` value carries its own options, as if only one cache were ever built.
- Text.ToLower: lower-cases ASCII letters only. .NET `ToLower()` is culture-sensitive and also folds non-ASCII letters.
- Null keys are not modelled separately: Dafny strings are never null. The empty string takes their place, and `IsNullOrWhiteSpace` treats the two alike. The one place they differ is the raw key of the synchronous `HashDelete`/`HashExists`.
- A null environment name (which makes `ToLower` throw) and a null callback are not modelled.
- The DI container, the `ICache` interface and the example controller are left out, because they hold no logic of their own.

=== FILE: cache_properties.dfy ===
/** Properties that relate several cache operations: read-after-write,
    isolation of keys and fields, cache-aside behaviour over two calls,
    blank keys, and the end-to-end default registration. */
module CacheProperties {
  import opened Wrappers
  import opened Primitives
  import opened Text
  import opened KeyCodec
  import opened Serialization
  import opened RedisStore
  import opened Configuration
  import opened RedisCache
  import opened ServiceCollectionExtensions

  /** A value written with a successful `Set` is what `Get` returns. */
  lemma SetThenGet<V>(c: Cache<V>, st: Store, key: string, value: Option<V>, ttl: int32, perCall: Option<SerializerOptions>)
    requires !IsNullOrWhiteSpace(key)
    requires RoundTrips(c.json, OptionsOf(c, perCall), value)
    ensures var w := Set(c, st, key, value, ttl, perCall, Stored(true));
            && w.Ok? && w.value.result
            && Get(c, w.value.store, key, perCall) == Ok(value)
  {
  }

  /** A write to one key leaves every other key's reads as they were. */
  lemma SetLeavesOtherKeys<V>(c: Cache<V>, st: Store, key: string, other: string, value: Option<V>, ttl: int32,
                              perCall: Option<SerializerOptions>, reply: WriteReply)
    requires !IsNullOrWhiteSpace(key) && key != other
    ensures var w := Set(c, st, key, value, ttl, perCall, reply);
            w.Ok? ==> && Get(c, w.value.store, other, perCall) == Get(c, st, other, perCall)
                      && Exists(c, w.value.store, other) == Exists(c, st, other)
  {
    if !IsNullOrWhiteSpace(other) {
      KeysDoNotCollide(c.namespace, key, other);
    }
  }

  /** After `Delete` the key neither exists nor reads as anything. */
  lemma DeleteThenAbsent<V>(c: Cache<V>, st: Store, key: string, field: string, perCall: Option<SerializerOptions>)
    requires !IsNullOrWhiteSpace(key)
    ensures var d := Delete(c, st, key);
            && d.Ok?
            && Exists(c, d.value.store, key) == Ok(false)
            && Get(c, d.value.store, key, perCall) == Ok(None)
            && HashGet(c, d.value.store, key, field, perCall) == Ok(None)
  {
  }

  /** Writing a second field leaves the first field's value in place, and the
      whole key exists after either write. */
  lemma HashFieldIsolation<V>(c: Cache<V>, st: Store, key: string, f1: string, f2: string, v1: Option<V>, v2: Option<V>,
                              ttl: int32, perCall: Option<SerializerOptions>, expireApplied: bool)
    requires !IsNullOrWhiteSpace(key) && f1 != f2
    requires RoundTrips(c.json, OptionsOf(c, perCall), v1) && RoundTrips(c.json, OptionsOf(c, perCall), v2)
    ensures var w1 := HashSet(c, st, key, f1, v1, ttl, perCall, Stored(true), expireApplied);
            && w1.Ok? && w1.value.result
            && Exists(c, w1.value.store, key) == Ok(true)
            && var w2 := HashSet(c, w1.value.store, key, f2, v2, ttl, perCall, Stored(true), expireApplied);
            && w2.Ok?
            && HashGet(c, w2.value.store, key, f1, perCall) == Ok(v1)
            && HashGet(c, w2.value.store, key, f2, perCall) == Ok(v2)
            && Exists(c, w2.value.store, key) == Ok(true)
  {
    var w1 := HashSet(c, st, key, f1, v1, ttl, perCall, Stored(true), expireApplied);
    var pk := KeyOf(c, key);
    var w2 := HashSet(c, w1.value.store, key, f2, v2, ttl, perCall, Stored(true), expireApplied);
    assert FieldsOf(w2.value.store, pk)[f1] == FieldsOf(w1.value.store, pk)[f1];
  }

  /** On a null read, `GetOrSet` runs the producer once and a successful
      write makes the next `Get` return the produced value. */
  lemma GetOrSetPopulates<V>(c: Cache<V>, st: Store, key: string, produced: Option<V>, ttl: int32,
                             perCall: Option<SerializerOptions>)
    requires Get(c, st, key, perCall) == Ok(None)
    requires RoundTrips(c.json, OptionsOf(c, perCall), produced)
    ensures var r := GetOrSet(c, st, key, produced, ttl, perCall, Stored(true));
            && r.Ok? && r.value.value == produced && r.value.producerCalls == 1
            && Get(c, r.value.store, key, perCall) == Ok(produced)
  {
    SetThenGet(c, st, key, produced, ttl, perCall);
  }

  /** Once a non-null value is cached, a second `GetOrSet` with any producer
      returns it, runs no producer and leaves the store alone. */
  lemma GetOrSetSecondCallHits<V>(c: Cache<V>, st: Store, key: string, v: V, other: Option<V>, ttl: int32,
                                  perCall: Option<SerializerOptions>, reply: WriteReply)
    requires Get(c, st, key, perCall) == Ok(None)
    requires RoundTrips(c.json, OptionsOf(c, perCall), Some(v))
    ensures var first := GetOrSet(c, st, key, Some(v), ttl, perCall, Stored(true));
            && first.Ok?
            && GetOrSet(c, first.value.store, key, other, ttl, perCall, reply) == Ok(Produced(Some(v), first.value.store, 0))
  {
    GetOrSetPopulates(c, st, key, Some(v), ttl, perCall);
  }

  /** A producer that returns null is never cached: the next `GetOrSet` runs
      the producer again even though the write succeeded. */
  lemma NullResultIsNeverAHit<V>(c: Cache<V>, st: Store, key: string, other: Option<V>, ttl: int32,
                                 perCall: Option<SerializerOptions>, reply: WriteReply)
    requires Get(c, st, key, perCall) == Ok(None)
    requires RoundTrips(c.json, OptionsOf(c, perCall), None)
    ensures var first := GetOrSet(c, st, key, None, ttl, perCall, Stored(true));
            && first.Ok?
            && var second := GetOrSet(c, first.value.store, key, other, ttl, perCall, reply);
            && second.Ok? && second.value.producerCalls == 1 && second.value.value == other
  {
    GetOrSetPopulates(c, st, key, None, ttl, perCall);
  }

  /** `HashGetOrSet` populates a missing field, and the next call is a hit
      that runs no producer and leaves the store alone. */
  lemma HashGetOrSetPopulates<V>(c: Cache<V>, st: Store, key: string, field: string, v: V, other: Option<V>,
                                 ttl: int32, perCall: Option<SerializerOptions>, expireApplied: bool, reply: WriteReply)
    requires HashGet(c, st, key, field, perCall) == Ok(None)
    requires RoundTrips(c.json, OptionsOf(c, perCall), Some(v))
    ensures var first := HashGetOrSet(c, st, key, field, Some(v), ttl, perCall, Stored(true), expireApplied);
            && first.Ok? && first.value.producerCalls == 1
            && HashGet(c, first.value.store, key, field, perCall) == Ok(Some(v))
            && HashGetOrSet(c, first.value.store, key, field, other, ttl, perCall, reply, expireApplied)
                 == Ok(Produced(Some(v), first.value.store, 0))
  {
  }

  /** A null, empty or blank key fails every namespaced operation with an
      `ArgumentException` and leaves the store as it was; the only
      exception is a write whose payload is empty, which answers false. */
  lemma BlankKeyTouchesNothing<V>(c: Cache<V>, st: Store, key: string, field: string, value: Option<V>, produced: Option<V>,
                                  producerPayload: Result<string, CacheError>,
                                  ttl: int32, perCall: Option<SerializerOptions>, reply: WriteReply, expireApplied: bool)
    requires IsNullOrWhiteSpace(key)
    ensures Get(c, st, key, perCall) == Err(InvalidArgument)
    ensures HashGet(c, st, key, field, perCall) == Err(InvalidArgument)
    ensures Delete(c, st, key) == Err(InvalidArgument)
    ensures Exists(c, st, key) == Err(InvalidArgument)
    ensures HashDelete(c, st, key, field) == Err(InvalidArgument)
    ensures HashExists(c, st, key, field) == Err(InvalidArgument)
    ensures GetOrSet(c, st, key, produced, ttl, perCall, reply) == Err(InvalidArgument)
    ensures HashGetOrSet(c, st, key, field, produced, ttl, perCall, reply, expireApplied) == Err(InvalidArgument)
    ensures Set(c, st, key, value, ttl, perCall, reply) in {Err(InvalidArgument), Ok(Step(false, st))}
    ensures HashSet(c, st, key, field, value, ttl, perCall, reply, expireApplied) in {Err(InvalidArgument), Ok(Step(false, st))}
    ensures GetOrSetSync(c, st, key, produced, producerPayload, ttl, perCall, reply) == Err(InvalidArgument)
    ensures HashGetOrSetSync(c, st, key, field, produced, producerPayload, ttl, perCall, reply, expireApplied) == Err(InvalidArgument)
    ensures producerPayload.Err? ==> && SetSync(c, st, key, producerPayload, ttl, reply) == Err(producerPayload.error)
                                     && HashSetSync(c, st, key, field, producerPayload, ttl, reply, expireApplied) == Err(producerPayload.error)
    ensures producerPayload.Ok? ==>
              && SetSync(c, st, key, producerPayload, ttl, reply) in {Err(InvalidArgument), Ok(Step(false, st))}
              && HashSetSync(c, st, key, field, producerPayload, ttl, reply, expireApplied) in {Err(InvalidArgument), Ok(Step(false, st))}
  {
  }

  /** A successful field write whose expiry refresh the store did not apply
      reports success, yet a key created by it has no expiry at all. */
  lemma RefreshFailureLeavesKeyWithoutExpiry<V>(c: Cache<V>, st: Store, key: string, field: string, payload: string, ttl: int32)
    requires !IsNullOrWhiteSpace(key) && payload != ""
    requires KeyOf(c, key) !in st.hashes
    ensures var w := HashSetPayload(c, st, key, field, payload, ttl, Stored(true), false);
            && w.Ok? && w.value.result
            && TtlOf(w.value.store, KeyOf(c, key)).None?
  {
  }

  /** Overwriting an existing field (HSET answers false) does not refresh
      the key's expiry, and the call reports false. */
  lemma OverwriteKeepsExpiry<V>(c: Cache<V>, st: Store, key: string, field: string, payload: string, ttl: int32, expireApplied: bool)
    requires !IsNullOrWhiteSpace(key) && payload != ""
    ensures var w := HashSetPayload(c, st, key, field, payload, ttl, Stored(false), expireApplied);
            && w.Ok? && !w.value.result
            && TtlOf(w.value.store, KeyOf(c, key)) == TtlOf(st, KeyOf(c, key))
  {
  }

  /** After `HashDelete`, the field no longer exists. */
  lemma HashDeleteThenAbsent<V>(c: Cache<V>, st: Store, key: string, field: string, perCall: Option<SerializerOptions>)
    requires !IsNullOrWhiteSpace(key)
    ensures var d := HashDelete(c, st, key, field);
            && d.Ok?
            && HashExists(c, d.value.store, key, field) == Ok(false)
            && HashGet(c, d.value.store, key, field, perCall) == Ok(None)
  {
    var pk := KeyOf(c, key);
    var d := HashDelete(c, st, key, field);
    assert field !in FieldsOf(d.value.store, pk);
  }

  /** The synchronous `HashDelete` does not reach a field the cache stored:
      the field still exists afterwards. */
  lemma SyncHashDeleteMissesCachedField<V>(c: Cache<V>, st: Store, key: string, field: string)
    requires HashExists(c, st, key, field) == Ok(true)
    ensures HashExists(c, HashDeleteAsWritten(st, key, field).store, key, field) == Ok(true)
  {
    assert |KeyOf(c, key)| > |key|;
  }

  /** The synchronous `HashExists` does not see a field the cache stored,
      unless some client also wrote a hash under the raw key. */
  lemma SyncHashExistsMissesCachedField<V>(c: Cache<V>, st: Store, key: string, field: string)
    requires HashExists(c, st, key, field) == Ok(true)
    requires key !in st.hashes
    ensures !HashExistsAsWritten(st, key, field)
  {
  }

  /** The synchronous `HashExists` never sees a write the cache makes: its
      answer after any `HashSetAsync` is its answer before. */
  lemma SyncHashExistsIgnoresCacheWrites<V>(c: Cache<V>, st: Store, key: string, field: string, value: Option<V>,
                                            ttl: int32, perCall: Option<SerializerOptions>, reply: WriteReply, expireApplied: bool)
    ensures var w := HashSet(c, st, key, field, value, ttl, perCall, reply, expireApplied);
            w.Ok? ==> HashExistsAsWritten(w.value.store, key, field) == HashExistsAsWritten(st, key, field)
  {
    if !IsNullOrWhiteSpace(key) {
      assert |KeyOf(c, key)| > |key|;
    }
  }

  /** The synchronous `GetOrSet` never caches the producer's value. Where
      the serialiser refuses the delegate (as System.Text.Json does) the
      call fails on every miss, although `GetOrSetAsync` with the same
      producer succeeds; where it produces some payload, that payload is
      written whatever the producer computes, so for two different values at
      least one is not what the next `Get` returns. */
  lemma SyncGetOrSetIgnoresProducedValue<V>(c: Cache<V>, st: Store, key: string, v1: Option<V>, v2: Option<V>,
                                            producerPayload: Result<string, CacheError>, ttl: int32,
                                            perCall: Option<SerializerOptions>, reply: WriteReply)
    requires Get(c, st, key, perCall) == Ok(None)
    requires v1 != v2
    ensures var a := GetOrSetSync(c, st, key, v1, producerPayload, ttl, perCall, reply);
            var b := GetOrSetSync(c, st, key, v2, producerPayload, ttl, perCall, reply);
            && (producerPayload.Err? ==>
                  && a == Err(producerPayload.error) && b == Err(producerPayload.error)
                  && GetOrSet(c, st, key, v1, ttl, perCall, reply).Ok?)
            && (producerPayload.Ok? ==>
                  && a.Ok? && b.Ok? && a.value.store == b.value.store
                  && (Get(c, a.value.store, key, perCall) != Ok(v1) || Get(c, b.value.store, key, perCall) != Ok(v2)))
  {
  }

  /** The synchronous `HashGetOrSet` likewise serialises the delegate, not
      the value it computes: a refusal fails the call where
      `HashGetOrSetAsync` succeeds, and any payload is the same for every
      produced value. */
  lemma SyncHashGetOrSetIgnoresProducedValue<V>(c: Cache<V>, st: Store, key: string, field: string, v1: Option<V>, v2: Option<V>,
                                                producerPayload: Result<string, CacheError>, ttl: int32,
                                                perCall: Option<SerializerOptions>, reply: WriteReply, expireApplied: bool)
    requires HashGet(c, st, key, field, perCall) == Ok(None)
    requires v1 != v2
    ensures var a := HashGetOrSetSync(c, st, key, field, v1, producerPayload, ttl, perCall, reply, expireApplied);
            var b := HashGetOrSetSync(c, st, key, field, v2, producerPayload, ttl, perCall, reply, expireApplied);
            && (producerPayload.Err? ==>
                  && a == Err(producerPayload.error) && b == Err(producerPayload.error)
                  && HashGetOrSet(c, st, key, field, v1, ttl, perCall, reply, expireApplied).Ok?)
            && (producerPayload.Ok? ==>
                  && a.Ok? && b.Ok? && a.value.store == b.value.store
                  && (HashGet(c, a.value.store, key, field, perCall) != Ok(v1)
                      || HashGet(c, b.value.store, key, field, perCall) != Ok(v2)))
  {
  }

  /** After a successful `HashSet`, `HashExists` finds the field. */
  lemma HashSetThenHashExists<V>(c: Cache<V>, st: Store, key: string, field: string, value: Option<V>, ttl: int32,
                                 perCall: Option<SerializerOptions>, reply: WriteReply, expireApplied: bool)
    ensures var w := HashSet(c, st, key, field, value, ttl, perCall, reply, expireApplied);
            w.Ok? && w.value.result ==> HashExists(c, w.value.store, key, field) == Ok(true)
  {
  }

  /** Without an explicit `expirationMinutes`, a write expires after an
      hour. */
  lemma SetExpiresAfterAnHourByDefault<V>(c: Cache<V>, st: Store, key: string, value: Option<V>,
                                          perCall: Option<SerializerOptions>)
    requires !IsNullOrWhiteSpace(key) && Encode(c, perCall, value) != ""
    ensures var w := Set(c, st, key, value, perCall := perCall, reply := Stored(true));
            && w.Ok? && w.value.result
            && w.value.store.strings[KeyOf(c, key)].ttlMinutes == 60
  {
  }

  /** The environment registration, once its configuration JSON decodes back
      to the default configuration, yields a cache exactly when the database
      number is at least -1; that cache is on `localhost:6379` with the
      default connection settings, the requested database, and physical keys
      `lower(env).ares.com:key`. */
  lemma EnvironmentRegistrationEndToEnd<V>(environmentName: string, databaseNumber: int32,
                                           serializeConfiguration: RedisConfiguration -> string,
                                           parse: string -> Result<Option<RedisConfiguration>, string>,
                                           json: Json<V>, key: string)
    requires serializeConfiguration(DefaultConfiguration()) != ""
    requires parse(serializeConfiguration(DefaultConfiguration())) == Ok(Some(DefaultConfiguration()))
    requires !IsNullOrWhiteSpace(key)
    ensures var registered := AddRedisCache(environmentName, databaseNumber, serializeConfiguration);
            && registered.Ok?
            && var cache := New(registered.value, parse, json);
            && (cache.Ok? <==> databaseNumber >= -1)
            && (cache.Err? ==> cache.error == InvalidArgument)
            && (cache.Ok? ==>
                  && cache.value.connection.endPoints == ["localhost:6379"]
                  && cache.value.connection.allowAdmin
                  && cache.value.connection.connectRetry == 3
                  && cache.value.connection.connectTimeout == 10000
                  && cache.value.connection.commandMap.None?
                  && cache.value.database == databaseNumber
                  && AddNamespaceToKey(cache.value.namespace, key) == Ok(ToLower(environmentName) + ".ares.com:" + key))
  {
    DefaultConnectionOptions();
    EnvironmentPhysicalKey(environmentName, key);
  }

  /** A callback that sets only the configuration text leaves every other
      option at its `new RedisOptions()` default: no namespace, database 0
      and serialiser options that ignore nulls; the cache built from it
      uses them, so its physical keys are the bare key after the separator. */
  lemma CallbackKeepsFreshDefaults<V>(text: string, parse: string -> Result<Option<RedisConfiguration>, string>,
                                      json: Json<V>, cfg: RedisConfiguration)
    requires text != ""
    requires parse(text) == Ok(Some(cfg))
    requires GetOptions(cfg).Ok? && !cfg.isCluster
    ensures var registered := AddRedisCacheWith((o: RedisOptions) => o.(configuration := Some(text)));
            && registered.Ok?
            && registered.value.namespace.None?
            && registered.value.databaseNumber == 0
            && var cache := New(registered.value, parse, json);
            && cache.Ok?
            && cache.value.database == 0
            && OptionsOf(cache.value, None) == CacheDefaults
            && (forall k :: !IsNullOrWhiteSpace(k) ==> AddNamespaceToKey(cache.value.namespace, k) == Ok([Separator] + k))
  {
    var registered := AddRedisCacheWith((o: RedisOptions) => o.(configuration := Some(text)));
    assert registered == Ok(FreshOptions().(configuration := Some(text)));
    var cache := New(registered.value, parse, json);
    assert cache.Ok? && cache.value.namespace.None?;
    forall k | !IsNullOrWhiteSpace(k)
      ensures AddNamespaceToKey(cache.value.namespace, k) == Ok([Separator] + k)
    {
      assert PhysicalKey(None, k) == [Separator] + k;
    }
  }

  /** The synchronous `Set` writes the delegate's serialisation, and a
      reported success is what the synchronous `Get` reads back: the
      decoded payload, not the producer's value. */
  lemma SyncSetThenGet<V>(c: Cache<V>, st: Store, key: string, payload: string, ttl: int32, perCall: Option<SerializerOptions>)
    requires !IsNullOrWhiteSpace(key) && payload != ""
    ensures var w := SetSync(c, st, key, Ok(payload), ttl, Stored(true));
            && w.Ok? && w.value.result
            && Get(c, w.value.store, key, perCall) == Decode(c, perCall, payload)
  {
  }

  /** The synchronous `HashSet` writes the delegate's serialisation to the
      field: a reported success is seen by `HashExists` and read back by
      `HashGet` as the decoded payload. */
  lemma SyncHashSetThenHashGet<V>(c: Cache<V>, st: Store, key: string, field: string, payload: string, ttl: int32,
                                  perCall: Option<SerializerOptions>, expireApplied: bool)
    requires !IsNullOrWhiteSpace(key) && payload != ""
    ensures var w := HashSetSync(c, st, key, field, Ok(payload), ttl, Stored(true), expireApplied);
            && w.Ok? && w.value.result
            && HashExists(c, w.value.store, key, field) == Ok(true)
            && HashGet(c, w.value.store, key, field, perCall) == Decode(c, perCall, payload)
  {
  }

  /** The synchronous setters serialise before they check the key: a
      refused delegate fails with the serialiser's error even for a blank
      key, where `SetAsync` / `HashSetAsync` with a value fail with the
      key's `ArgumentException`. */
  lemma SyncSetSerialisesBeforeKeyCheck<V>(c: Cache<V>, st: Store, key: string, field: string, value: Option<V>,
                                           ttl: int32, perCall: Option<SerializerOptions>, reply: WriteReply, expireApplied: bool)
    requires IsNullOrWhiteSpace(key) && Encode(c, perCall, value) != ""
    ensures SetSync(c, st, key, Err(NotSupported), ttl, reply) == Err(NotSupported)
    ensures HashSetSync(c, st, key, field, Err(NotSupported), ttl, reply, expireApplied) == Err(NotSupported)
    ensures Set(c, st, key, value, ttl, perCall, reply) == Err(InvalidArgument)
    ensures HashSet(c, st, key, field, value, ttl, perCall, reply, expireApplied) == Err(InvalidArgument)
  {
  }

  /** Registering without a database number selects database 0, and the
      cache is built. */
  lemma DefaultRegistrationUsesDatabaseZero<V>(environmentName: string,
                                               serializeConfiguration: RedisConfiguration -> string,
                                               parse: string -> Result<Option<RedisConfiguration>, string>,
                                               json: Json<V>)
    requires serializeConfiguration(DefaultConfiguration()) != ""
    requires parse(serializeConfiguration(DefaultConfiguration())) == Ok(Some(DefaultConfiguration()))
    ensures var registered := AddRedisCache(environmentName, serializeConfiguration := serializeConfiguration);
            && registered.Ok?
            && var cache := New(registered.value, parse, json);
            && cache.Ok? && cache.value.database == 0
  {
    DefaultConnectionOptions();
  }

  /** The default `HostAndPorts` is a single endpoint. */
  lemma DefaultEndpoints()
    ensures ParseEndpoints("localhost:6379") == ["localhost:6379"]
  {
    var host := "localhost:6379";
    assert EndpointSeparator !in host;
    assert !IsWhiteSpace(host[0]) && !IsWhiteSpace(host[|host| - 1]);
    ParseJoinedTrimmedEndpoints([host]);
  }

  /** The default configuration is accepted and gives these connection
      options. */
  lemma DefaultConnectionOptions()
    ensures GetOptions(DefaultConfiguration())
            == Ok(ConnectionOptions(None, true, 3, 10000, 0, 0, ConfigCheckSeconds, None, ["localhost:6379"]))
  {
    var host := "localhost:6379";
    assert EndpointSeparator !in host;
    assert !IsWhiteSpace(host[0]) && !IsWhiteSpace(host[|host| - 1]);
    assert Join([host], EndpointSeparator) == host;
    assert DistinctNonEmpty([host]) by {
      assert |host| > 0;
    }
    JoinedEndpointsAdmission(DefaultConfiguration(), [host]);
    var r := GetOptions(DefaultConfiguration());
    assert r.Ok? && r.value.endPoints == [host];
  }

  /** The physical key of an environment's cache. */
  lemma EnvironmentPhysicalKey(environmentName: string, key: string)
    requires !IsNullOrWhiteSpace(key)
    ensures AddNamespaceToKey(Some(DeriveNamespace(environmentName)), key) == Ok(ToLower(environmentName) + ".ares.com:" + key)
  {
    var lower := ToLower(environmentName);
    assert DomainSuffix + [Separator] == ".ares.com:";
    assert PhysicalKey(Some(DeriveNamespace(environmentName)), key)
        == lower + (DomainSuffix + [Separator]) + key;
  }

  /** A session round trip: on namespace `prod.example.com`, a value set under
      `session:42` reads back, is deleted with answer true, and then no
      longer exists. */
  lemma SessionScenario<V>(c: Cache<V>, v: V, perCall: Option<SerializerOptions>)
    requires c.namespace == Some("prod.example.com")
    requires RoundTrips(c.json, OptionsOf(c, perCall), Some(v))
    ensures var w := Set(c, EmptyStore, "session:42", Some(v), 5, perCall, Stored(true));
            && w.Ok? && w.value.result
            && Get(c, w.value.store, "session:42", perCall) == Ok(Some(v))
            && var d := Delete(c, w.value.store, "session:42");
            && d.Ok? && d.value.result
            && Exists(c, d.value.store, "session:42") == Ok(false)
  {
    assert !IsNullOrWhiteSpace("session:42") by {
      assert !IsWhiteSpace("session:42"[0]);
    }
    SetThenGet(c, EmptyStore, "session:42", Some(v), 5, perCall);
  }
}

=== FILE: configuration.dfy ===
/** The configuration the cache is built from (`RedisOptions`,
    `RedisConfiguration`) and the client options derived from it
    (`RedisCache.GetOptions`). */
module Configuration {
  import opened Wrappers
  import opened Primitives
  import opened Text
  import opened Serialization

  /** The JSON document held in `RedisOptions.Configuration`, decoded.
      Reference-typed members may be null. */
  datatype RedisConfiguration = RedisConfiguration(
    hostAndPorts: Option<string>,
    password: Option<string>,
    allowAdmin: bool,
    connectRetry: int32,
    connectTimeout: int32,
    keepAlive: int32,
    syncTimeout: int32,
    isCluster: bool)

  /** What a caller hands to the cache; every member may be left null. */
  datatype RedisOptions = RedisOptions(
    configuration: Option<string>,
    namespace: Option<string>,
    databaseNumber: int32,
    serializerOptions: Option<SerializerOptions>)

  /** The client's `ConfigurationOptions` as far as the cache sets them. */
  datatype ConnectionOptions = ConnectionOptions(
    password: Option<string>,
    allowAdmin: bool,
    connectRetry: int32,
    connectTimeout: int32,
    keepAlive: int32,
    syncTimeout: int32,
    configCheckSeconds: int32,
    commandMap: Option<map<string, string>>,
    endPoints: seq<string>)

  const ConfigCheckSeconds: int32 := 10

  /** The command renaming installed in cluster mode. */
  const ClusterCommandMap: map<string, string> := map["$CLUSTER" := "cluster"]

  /** `GetDatabase()` without an argument: the connection's default. */
  const DefaultDatabase: int32 := -1

  const EndpointSeparator: char := ','

  /** Every piece trimmed, in place. */
  function TrimEach(pieces: seq<string>): (r: seq<string>)
    ensures |r| == |pieces|
    ensures forall i :: 0 <= i < |r| ==> r[i] == Trim(pieces[i])
  {
    seq(|pieces|, i requires 0 <= i < |pieces| => Trim(pieces[i]))
  }

  /** Pieces that are already unpadded are left as they are. */
  lemma TrimEachOfTrimmed(pieces: seq<string>)
    requires forall i :: 0 <= i < |pieces| ==> IsTrimmed(pieces[i])
    ensures TrimEach(pieces) == pieces
  {
    forall i | 0 <= i < |pieces| ensures Trim(pieces[i]) == pieces[i] {
      assert pieces[i] == [] + pieces[i] + [];
      TrimOfPadded([], pieces[i], []);
    }
  }

  /** `HostAndPorts.Split(',')` with every piece trimmed: one endpoint more
      than there are commas, none holding a comma or surrounding
      whitespace. */
  function ParseEndpoints(hostAndPorts: string): (endPoints: seq<string>)
    ensures |endPoints| == multiset(hostAndPorts)[EndpointSeparator] + 1
    ensures forall i :: 0 <= i < |endPoints| ==> EndpointSeparator !in endPoints[i]
    ensures forall i :: 0 <= i < |endPoints| ==> IsTrimmed(endPoints[i])
  {
    TrimEach(Split(hostAndPorts, EndpointSeparator))
  }

  /** A comma-separated list of comma-free pieces parses to those pieces
      trimmed, in order: `"a:1, b:2"` gives `a:1` and `b:2`. */
  lemma ParseJoinedEndpoints(hosts: seq<string>)
    requires |hosts| > 0
    requires forall i :: 0 <= i < |hosts| ==> EndpointSeparator !in hosts[i]
    ensures ParseEndpoints(Join(hosts, EndpointSeparator)) == TrimEach(hosts)
  {
    SplitJoin(hosts, EndpointSeparator);
  }

  /** A comma-separated list of unpadded endpoints parses back to the list,
      in order. */
  lemma ParseJoinedTrimmedEndpoints(hosts: seq<string>)
    requires |hosts| > 0
    requires forall i :: 0 <= i < |hosts| ==> EndpointSeparator !in hosts[i] && IsTrimmed(hosts[i])
    ensures ParseEndpoints(Join(hosts, EndpointSeparator)) == hosts
  {
    ParseJoinedEndpoints(hosts);
    TrimEachOfTrimmed(hosts);
  }

  /** Trimming a pair of pieces trims each. */
  lemma TrimEachPair(a: string, b: string)
    ensures TrimEach([a, b]) == [Trim(a), Trim(b)]
  {
  }

  /** A space after the comma, as in `"a:1, b:2"`, is trimmed away: the
      endpoints are the two unpadded hosts themselves. */
  lemma SpaceAfterCommaIsTrimmed(first: string, second: string)
    requires EndpointSeparator !in first && EndpointSeparator !in second
    requires IsTrimmed(first) && IsTrimmed(second)
    ensures ParseEndpoints(first + [EndpointSeparator, ' '] + second) == [first, second]
  {
    var padded := [' '] + second;
    var hosts := [first, padded];
    var setting := first + [EndpointSeparator, ' '] + second;
    assert EndpointSeparator !in padded;
    assert setting == Join(hosts, EndpointSeparator) by {
      assert hosts[1..] == [padded];
    }
    ParseJoinedEndpoints(hosts);
    TrimEachPair(first, padded);
    TrimEachOfTrimmed([first]);
    assert Trim(first) == TrimEach([first])[0];
    TrimAfterSpace(second);
  }

  /** Without whitespace in the setting, the endpoints joined by commas give
      the setting back: nothing is dropped, added or reordered. */
  lemma EndpointsJoinBack(hostAndPorts: string)
    requires forall c :: c in hostAndPorts ==> !IsWhiteSpace(c)
    ensures Join(ParseEndpoints(hostAndPorts), EndpointSeparator) == hostAndPorts
  {
    var pieces := Split(hostAndPorts, EndpointSeparator);
    forall i | 0 <= i < |pieces| ensures IsTrimmed(pieces[i]) {
      var p := pieces[i];
      assert forall c :: c in p ==> c in hostAndPorts by {
        JoinSplit(hostAndPorts, EndpointSeparator);
        PieceInJoin(pieces, EndpointSeparator, i);
      }
      assert p != [] ==> p[0] in p && p[|p| - 1] in p;
    }
    TrimEachOfTrimmed(pieces);
    JoinSplit(hostAndPorts, EndpointSeparator);
  }

  /** Endpoints the client accepts: none empty, none repeated. */
  predicate DistinctNonEmpty(endPoints: seq<string>) {
    && (forall i :: 0 <= i < |endPoints| ==> endPoints[i] != "")
    && (forall i, j :: 0 <= i < j < |endPoints| ==> endPoints[i] != endPoints[j])
  }

  /** `EndPoints.Add` for each piece in turn: a piece that does not parse
      (the empty one) or that is already in the collection throws
      `ArgumentException`; otherwise the pieces end up in the collection in
      order. */
  function AddEndpoints(collection: seq<string>, pieces: seq<string>): (r: Result<seq<string>, CacheError>)
    requires DistinctNonEmpty(collection)
    ensures r.Ok? <==> DistinctNonEmpty(collection + pieces)
    ensures r.Ok? ==> r.value == collection + pieces
    ensures r.Err? ==> r.error == InvalidArgument
    decreases |pieces|
  {
    if pieces == [] then
      assert collection + pieces == collection;
      Ok(collection)
    else if pieces[0] == "" || pieces[0] in collection then
      var all := collection + pieces;
      assert !DistinctNonEmpty(all) by {
        assert all[|collection|] == pieces[0];
        if pieces[0] in collection {
          var i :| 0 <= i < |collection| && collection[i] == pieces[0];
          assert all[i] == all[|collection|];
        }
      }
      Err(InvalidArgument)
    else
      var grown := collection + [pieces[0]];
      assert grown + pieces[1..] == collection + pieces;
      AddEndpoints(grown, pieces[1..])
  }

  /** `GetOptions`: the connection options copy the configuration's
      settings, add a ten-second configuration check and, in cluster mode,
      the cluster command map; a null `HostAndPorts` throws
      `NullReferenceException`, and an empty or repeated endpoint throws
      `ArgumentException`. */
  function GetOptions(cfg: RedisConfiguration): (r: Result<ConnectionOptions, CacheError>)
    ensures r.Err? <==> cfg.hostAndPorts.None? || !DistinctNonEmpty(ParseEndpoints(cfg.hostAndPorts.value))
    ensures cfg.hostAndPorts.None? ==> r == Err(NullReference)
    ensures cfg.hostAndPorts.Some? && r.Err? ==> r.error == InvalidArgument
    ensures r.Ok? ==> r.value.endPoints == ParseEndpoints(cfg.hostAndPorts.value)
    ensures r.Ok? ==> r.value.configCheckSeconds == 10
    ensures r.Ok? ==> (r.value.commandMap.Some? <==> cfg.isCluster)
    ensures r.Ok? && cfg.isCluster ==> r.value.commandMap == Some(ClusterCommandMap)
    ensures r.Ok? ==> && r.value.password == cfg.password
                      && r.value.allowAdmin == cfg.allowAdmin
                      && r.value.connectRetry == cfg.connectRetry
                      && r.value.connectTimeout == cfg.connectTimeout
                      && r.value.keepAlive == cfg.keepAlive
                      && r.value.syncTimeout == cfg.syncTimeout
  {
    match cfg.hostAndPorts
    case None => Err(NullReference)
    case Some(hostAndPorts) =>
      var parsed := ParseEndpoints(hostAndPorts);
      assert [] + parsed == parsed;
      match AddEndpoints([], parsed)
      case Err(e) => Err(e)
      case Ok(endPoints) =>
        Ok(ConnectionOptions(
          cfg.password, cfg.allowAdmin, cfg.connectRetry, cfg.connectTimeout,
          cfg.keepAlive, cfg.syncTimeout, ConfigCheckSeconds,
          if cfg.isCluster then Some(ClusterCommandMap) else None,
          endPoints))
  }

  /** A comma-joined list of unpadded endpoints is accepted exactly when its
      endpoints are non-empty and distinct, and the connection then uses
      exactly those endpoints, in order. */
  lemma JoinedEndpointsAdmission(cfg: RedisConfiguration, hosts: seq<string>)
    requires |hosts| > 0
    requires forall i :: 0 <= i < |hosts| ==> EndpointSeparator !in hosts[i] && IsTrimmed(hosts[i])
    requires cfg.hostAndPorts == Some(Join(hosts, EndpointSeparator))
    ensures GetOptions(cfg).Ok? <==> DistinctNonEmpty(hosts)
    ensures GetOptions(cfg).Err? ==> GetOptions(cfg).error == InvalidArgument
    ensures GetOptions(cfg).Ok? ==> GetOptions(cfg).value.endPoints == hosts
  {
    ParseJoinedTrimmedEndpoints(hosts);
  }

  /** An empty setting is refused with `ArgumentException`. */
  lemma EmptySettingThrows(cfg: RedisConfiguration)
    ensures GetOptions(cfg.(hostAndPorts := Some(""))) == Err(InvalidArgument)
  {
    var hosts: seq<string> := [""];
    assert Join(hosts, EndpointSeparator) == "";
    JoinedEndpointsAdmission(cfg.(hostAndPorts := Some("")), hosts);
  }

  /** A trailing comma leaves an empty endpoint, which is refused. */
  lemma TrailingCommaThrows(cfg: RedisConfiguration, host: string)
    requires EndpointSeparator !in host && IsTrimmed(host)
    ensures GetOptions(cfg.(hostAndPorts := Some(host + [EndpointSeparator]))) == Err(InvalidArgument)
  {
    var hosts := [host, ""];
    assert hosts[1..] == [""];
    assert Join(hosts, EndpointSeparator) == host + [EndpointSeparator] + "";
    assert host + [EndpointSeparator] + "" == host + [EndpointSeparator];
    JoinedEndpointsAdmission(cfg.(hostAndPorts := Some(host + [EndpointSeparator])), hosts);
  }

  /** The same endpoint listed twice is refused. */
  lemma RepeatedEndpointThrows(cfg: RedisConfiguration, host: string)
    requires EndpointSeparator !in host && IsTrimmed(host)
    ensures GetOptions(cfg.(hostAndPorts := Some(host + [EndpointSeparator] + host))) == Err(InvalidArgument)
  {
    var hosts := [host, host];
    assert hosts[1..] == [host];
    JoinedEndpointsAdmission(cfg.(hostAndPorts := Some(host + [EndpointSeparator] + host)), hosts);
  }
}

=== FILE: key_codec.dfy ===
/** Key codec: how the cache turns a caller's logical key into the physical
    key it sends to the store (`RedisCache.AddNamespaceToKey`). */
module KeyCodec {
  import opened Wrappers
  import opened Primitives
  import opened Text

  const Separator: char := ':'

  /** The namespace as C# string interpolation renders it: a null
      namespace prints as nothing. */
  function NamespaceText(ns: Option<string>): string {
    ns.GetOr("")
  }

  /** `{namespace}:{key}`, with no escaping of the separator. */
  function PhysicalKey(ns: Option<string>, key: string): string {
    NamespaceText(ns) + [Separator] + key
  }

  /** Rejects a null, empty or whitespace-only key with an
      `ArgumentException`; otherwise prefixes the namespace. */
  function AddNamespaceToKey(ns: Option<string>, key: string): (r: Result<string, CacheError>)
    ensures r.Err? <==> IsNullOrWhiteSpace(key)
    ensures r.Err? ==> r.error == InvalidArgument
    ensures r.Ok? ==> |r.value| == |NamespaceText(ns)| + 1 + |key|
    ensures r.Ok? ==> r.value[..|NamespaceText(ns)|] == NamespaceText(ns)
    ensures r.Ok? ==> r.value[|NamespaceText(ns)|] == Separator
    ensures r.Ok? ==> r.value[|NamespaceText(ns)| + 1..] == key
  {
    if IsNullOrWhiteSpace(key) then Err(InvalidArgument) else Ok(PhysicalKey(ns, key))
  }

  /** The inverse of `AddNamespaceToKey`: the logical key behind a physical
      key of this namespace, if there is one. */
  function StripNamespace(ns: Option<string>, physical: string): Option<string> {
    var prefix := NamespaceText(ns) + [Separator];
    if |prefix| <= |physical| && physical[..|prefix|] == prefix
       && !IsNullOrWhiteSpace(physical[|prefix|..])
    then Some(physical[|prefix|..])
    else None
  }

  /** Every accepted key is recovered from its physical key. */
  lemma StripAfterAdd(ns: Option<string>, key: string)
    requires AddNamespaceToKey(ns, key).Ok?
    ensures StripNamespace(ns, AddNamespaceToKey(ns, key).value) == Some(key)
  {
    var prefix := NamespaceText(ns) + [Separator];
    assert PhysicalKey(ns, key) == prefix + key;
  }

  /** Every physical key the inverse accepts is produced from the key it
      returns: within one namespace the two are a bijection. */
  lemma AddAfterStrip(ns: Option<string>, physical: string)
    requires StripNamespace(ns, physical).Some?
    ensures AddNamespaceToKey(ns, StripNamespace(ns, physical).value) == Ok(physical)
  {
    var prefix := NamespaceText(ns) + [Separator];
    assert physical == physical[..|prefix|] + physical[|prefix|..];
  }

  /** Distinct logical keys never share a physical key. */
  lemma KeysDoNotCollide(ns: Option<string>, k1: string, k2: string)
    requires AddNamespaceToKey(ns, k1).Ok? && AddNamespaceToKey(ns, k2).Ok?
    requires k1 != k2
    ensures AddNamespaceToKey(ns, k1).value != AddNamespaceToKey(ns, k2).value
  {
    StripAfterAdd(ns, k1);
    StripAfterAdd(ns, k2);
  }

  /** The text in front of the first separator of a physical key. */
  function NamespaceOf(physical: string): Option<string> {
    if Separator in physical then Some(physical[..IndexOf(physical, Separator)]) else None
  }

  /** When the namespace itself holds no separator, the namespace can be
      read back from every physical key it produces. */
  lemma NamespaceOfPhysicalKey(ns: Option<string>, key: string)
    requires Separator !in NamespaceText(ns)
    ensures NamespaceOf(PhysicalKey(ns, key)) == Some(NamespaceText(ns))
  {
    IndexOfAfter(NamespaceText(ns), Separator, key);
    assert PhysicalKey(ns, key)[..|NamespaceText(ns)|] == NamespaceText(ns);
  }

  /** Two caches whose namespaces differ and hold no separator never share a
      physical key. */
  lemma NamespacesIsolate(ns1: Option<string>, ns2: Option<string>, k1: string, k2: string)
    requires Separator !in NamespaceText(ns1) && Separator !in NamespaceText(ns2)
    requires NamespaceText(ns1) != NamespaceText(ns2)
    ensures PhysicalKey(ns1, k1) != PhysicalKey(ns2, k2)
  {
    NamespaceOfPhysicalKey(ns1, k1);
    NamespaceOfPhysicalKey(ns2, k2);
  }

  /** The separator is not escaped: a namespace containing it can collide
      with another one, which is the caller's responsibility. */
  lemma SeparatorIsNotEscaped()
    ensures PhysicalKey(Some("a"), "b:c") == PhysicalKey(Some("a:b"), "c")
  {
  }
}

=== FILE: redis_cache.dfy ===
/** The cache engine of `RedisCache`: construction, the plain-key
    operations and the hash-field operations over the in-memory store.
    Every operation returns its answer and the store after it; a C#
    exception is an `Err`. The synchronous and asynchronous variants share
    one definition except where their code differs. */
module RedisCache {
  import opened Wrappers
  import opened Primitives
  import opened Text
  import opened KeyCodec
  import opened Serialization
  import opened RedisStore
  import opened Configuration

  /** One cache instance: its fixed namespace and serialiser settings, the
      database it selected and the connection options it built. */
  datatype Cache<!V> = Cache(
    namespace: Option<string>,
    serializerOptions: Option<SerializerOptions>,
    json: Json<V>,
    database: int32,
    connection: ConnectionOptions)

  /** The default of every `expirationMinutes` parameter: one hour. */
  const DefaultExpirationMinutes: int32 := 60

  /** The value a cache-aside call returns, the store after it, and how
      many times it ran the caller's producer. */
  datatype Produced<!V> = Produced(value: Option<V>, store: Store, producerCalls: nat)

  /** The constructor without the connection itself: decode the
      configuration JSON (`parse`, whose `Ok(None)` is the JSON literal
      null), build the connection options and pick the database. Outside
      cluster mode `GetDatabase(DatabaseNumber)` rejects a number below -1
      with `ArgumentOutOfRangeException`. */
  function New<V>(
    options: RedisOptions,
    parse: string -> Result<Option<RedisConfiguration>, string>,
    json: Json<V>): (r: Result<Cache<V>, CacheError>)
    ensures options.configuration.None? ==> r.Err? && r.error == InvalidArgument
    ensures options.configuration.Some? && parse(options.configuration.value).Err? ==>
              r.Err? && r.error == MalformedJson(parse(options.configuration.value).error)
    ensures options.configuration.Some? && parse(options.configuration.value) == Ok(None) ==>
              r.Err? && r.error == NullReference
    ensures options.configuration.Some? && parse(options.configuration.value).Ok?
            && parse(options.configuration.value).value.Some? ==>
              var cfg := parse(options.configuration.value).value.value;
              && (r.Ok? <==> GetOptions(cfg).Ok? && (cfg.isCluster || options.databaseNumber >= DefaultDatabase))
              && (GetOptions(cfg).Err? ==> r == Err(GetOptions(cfg).error))
              && (GetOptions(cfg).Ok? && r.Err? ==> r.error == InvalidArgument)
              && (r.Ok? ==> && r.value.namespace == options.namespace
                            && r.value.serializerOptions == options.serializerOptions
                            && r.value.json == json
                            && r.value.database == (if cfg.isCluster then DefaultDatabase else options.databaseNumber)
                            && Ok(r.value.connection) == GetOptions(cfg))
  {
    match options.configuration
    case None => Err(InvalidArgument)
    case Some(text) =>
      match parse(text)
      case Err(message) => Err(MalformedJson(message))
      case Ok(None) => Err(NullReference)
      case Ok(Some(cfg)) =>
        match GetOptions(cfg)
        case Err(e) => Err(e)
        case Ok(connection) =>
          if !cfg.isCluster && options.databaseNumber < DefaultDatabase then Err(InvalidArgument)
          else
            var database := if cfg.isCluster then DefaultDatabase else options.databaseNumber;
            Ok(Cache(options.namespace, options.serializerOptions, json, database, connection))
  }

  /** The physical key of `key` in this cache (meaningful for valid keys). */
  function KeyOf<V>(c: Cache<V>, key: string): string {
    PhysicalKey(c.namespace, key)
  }

  function OptionsOf<V>(c: Cache<V>, perCall: Option<SerializerOptions>): SerializerOptions {
    EffectiveOptions(perCall, c.serializerOptions)
  }

  function Encode<V>(c: Cache<V>, perCall: Option<SerializerOptions>, value: Option<V>): string {
    c.json.serialize(OptionsOf(c, perCall), value)
  }

  function Decode<V>(c: Cache<V>, perCall: Option<SerializerOptions>, payload: string): Result<Option<V>, CacheError> {
    match c.json.deserialize(OptionsOf(c, perCall), payload)
    case Ok(v) => Ok(v)
    case Err(message) => Err(MalformedJson(message))
  }

  /** The read rule shared by every getter: a missing or empty payload reads
      as null (`default(T)`), anything else is deserialised. */
  function ReadPayload<V>(c: Cache<V>, perCall: Option<SerializerOptions>, item: Option<string>): Result<Option<V>, CacheError> {
    if item.None? || item.value == "" then Ok(None) else Decode(c, perCall, item.value)
  }

  // ---------------------------------------------------------------------
  // Plain keys

  /** `Get` / `GetAsync`. */
  function Get<V>(c: Cache<V>, st: Store, key: string, perCall: Option<SerializerOptions>): (r: Result<Option<V>, CacheError>)
    ensures IsNullOrWhiteSpace(key) ==> r == Err(InvalidArgument)
    ensures !IsNullOrWhiteSpace(key) && (KeyOf(c, key) !in st.strings || st.strings[KeyOf(c, key)].payload == "") ==>
              r == Ok(None)
    ensures !IsNullOrWhiteSpace(key) && KeyOf(c, key) in st.strings && st.strings[KeyOf(c, key)].payload != "" ==>
              r == Decode(c, perCall, st.strings[KeyOf(c, key)].payload)
  {
    match AddNamespaceToKey(c.namespace, key)
    case Err(e) => Err(e)
    case Ok(pk) => ReadPayload(c, perCall, StringGet(st, pk))
  }

  /** The write half of `Set` / `SetAsync`, after serialisation: an empty
      payload is refused before the key is even looked at; otherwise the
      payload goes to the namespaced key with the given TTL and the store's
      answer is returned. */
  function SetPayload<V>(c: Cache<V>, st: Store, key: string, payload: string, ttl: int32 := DefaultExpirationMinutes, reply: WriteReply): (r: Result<Step<bool>, CacheError>)
    ensures payload == "" ==> r == Ok(Step(false, st))
    ensures payload != "" && IsNullOrWhiteSpace(key) ==> r == Err(InvalidArgument)
    ensures payload != "" && !IsNullOrWhiteSpace(key) ==>
              && r.Ok?
              && r.value.result == reply.Flag()
              && r.value.store.hashes == st.hashes
              && r.value.store.strings == (if reply.Stored? then st.strings[KeyOf(c, key) := StringEntry(payload, ttl)] else st.strings)
  {
    if payload == "" then Ok(Step(false, st))
    else
      match AddNamespaceToKey(c.namespace, key)
      case Err(e) => Err(e)
      case Ok(pk) => Ok(StringSet(st, pk, payload, ttl, reply))
  }

  /** `SetAsync`: serialise the value, then write it. Only a blank key with
      a non-empty payload throws, and a reported success is read back by
      `Get` as the decoded payload. */
  function Set<V>(c: Cache<V>, st: Store, key: string, value: Option<V>, ttl: int32 := DefaultExpirationMinutes,
                  perCall: Option<SerializerOptions>, reply: WriteReply): (r: Result<Step<bool>, CacheError>)
    ensures r.Err? <==> Encode(c, perCall, value) != "" && IsNullOrWhiteSpace(key)
    ensures r.Ok? && r.value.result ==> Get(c, r.value.store, key, perCall) == Decode(c, perCall, Encode(c, perCall, value))
    ensures r.Ok? && !r.value.result && reply.Refused? ==> r.value.store == st
  {
    SetPayload(c, st, key, Encode(c, perCall, value), ttl, reply)
  }

  /** `Delete` / `DeleteAsync`: removes the namespaced key, whatever it
      holds, and answers whether it existed. */
  function Delete<V>(c: Cache<V>, st: Store, key: string): (r: Result<Step<bool>, CacheError>)
    ensures IsNullOrWhiteSpace(key) ==> r == Err(InvalidArgument)
    ensures !IsNullOrWhiteSpace(key) ==>
              && r.Ok?
              && r.value.result == (KeyOf(c, key) in st.strings || KeyOf(c, key) in st.hashes)
              && r.value.store.strings == st.strings - {KeyOf(c, key)}
              && r.value.store.hashes == st.hashes - {KeyOf(c, key)}
  {
    match AddNamespaceToKey(c.namespace, key)
    case Err(e) => Err(e)
    case Ok(pk) => Ok(KeyDelete(st, pk))
  }

  /** `Exists` / `ExistsAsync`: whether the namespaced key holds anything. */
  function Exists<V>(c: Cache<V>, st: Store, key: string): (r: Result<bool, CacheError>)
    ensures IsNullOrWhiteSpace(key) ==> r == Err(InvalidArgument)
    ensures !IsNullOrWhiteSpace(key) ==> r == Ok(KeyOf(c, key) in st.strings || KeyOf(c, key) in st.hashes)
  {
    match AddNamespaceToKey(c.namespace, key)
    case Err(e) => Err(e)
    case Ok(pk) => Ok(KeyExists(st, pk))
  }

  /** `GetOrSetAsync`, cache-aside: a read that fails fails the call; a
      non-null read is returned without running the producer or touching
      the store; a null read runs the producer once (its result is
      `produced`), writes that result through `Set`, and returns it whatever
      the write answered. */
  function GetOrSet<V>(c: Cache<V>, st: Store, key: string, produced: Option<V>, ttl: int32 := DefaultExpirationMinutes,
                       perCall: Option<SerializerOptions>, reply: WriteReply): (r: Result<Produced<V>, CacheError>)
    ensures Get(c, st, key, perCall).Err? ==> r == Err(Get(c, st, key, perCall).error)
    ensures Get(c, st, key, perCall).Ok? && Get(c, st, key, perCall).value.Some? ==>
              r == Ok(Produced(Get(c, st, key, perCall).value, st, 0))
    ensures Get(c, st, key, perCall) == Ok(None) ==>
              && r.Ok?
              && r.value.value == produced
              && r.value.producerCalls == 1
              && Set(c, st, key, produced, ttl, perCall, reply).Ok?
              && r.value.store == Set(c, st, key, produced, ttl, perCall, reply).value.store
  {
    match Get(c, st, key, perCall)
    case Err(e) => Err(e)
    case Ok(Some(v)) => Ok(Produced(Some(v), st, 0))
    case Ok(None) =>
      var written := Set(c, st, key, produced, ttl, perCall, reply);
      Ok(Produced(produced, written.value.store, 1))
  }

  /** Synchronous `Set` as written: it takes the producer delegate, not a
      value, and serialises it before anything else, so the serialiser's
      answer `producerPayload` decides first. A refusal fails the call even
      for a blank key, with nothing written; a payload it did produce is
      written as `SetAsync` writes its serialisation. */
  function SetSync<V>(c: Cache<V>, st: Store, key: string, producerPayload: Result<string, CacheError>,
                      ttl: int32 := DefaultExpirationMinutes, reply: WriteReply): (r: Result<Step<bool>, CacheError>)
    ensures producerPayload.Err? ==> r == Err(producerPayload.error)
    ensures r.Err? <==> producerPayload.Err? || (producerPayload.value != "" && IsNullOrWhiteSpace(key))
    ensures r.Err? && producerPayload.Ok? ==> r.error == InvalidArgument
    ensures r.Ok? && r.value.result ==>
              && KeyOf(c, key) in r.value.store.strings
              && r.value.store.strings[KeyOf(c, key)] == StringEntry(producerPayload.value, ttl)
              && r.value.store.hashes == st.hashes
    ensures r.Ok? && !r.value.result && reply.Refused? ==> r.value.store == st
    ensures r.Ok? ==> && r.value.store.hashes == st.hashes
                      && r.value.store.strings - {KeyOf(c, key)} == st.strings - {KeyOf(c, key)}
    ensures producerPayload.Ok? ==> r == SetPayload(c, st, key, producerPayload.value, ttl, reply)
  {
    match producerPayload
    case Err(e) => Err(e)
    case Ok(payload) => SetPayload(c, st, key, payload, ttl, reply)
  }

  /** `GetOrSet` as written: on a miss it hands the producer delegate
      itself to `SetSync`, which serialises it before the producer ever runs.
      `producerPayload` is the serialiser's answer for the delegate:
      System.Text.Json refuses delegates (`Err(NotSupported)`), which fails
      the call with nothing written; a payload it did produce is written in
      place of the value, and the producer's value is returned. */
  function GetOrSetSync<V>(c: Cache<V>, st: Store, key: string, produced: Option<V>, producerPayload: Result<string, CacheError>,
                           ttl: int32 := DefaultExpirationMinutes, perCall: Option<SerializerOptions>, reply: WriteReply): (r: Result<Produced<V>, CacheError>)
    ensures Get(c, st, key, perCall).Err? ==> r == Err(Get(c, st, key, perCall).error)
    ensures Get(c, st, key, perCall).Ok? && Get(c, st, key, perCall).value.Some? ==>
              r == Ok(Produced(Get(c, st, key, perCall).value, st, 0))
    ensures Get(c, st, key, perCall) == Ok(None) && producerPayload.Err? ==> r == Err(producerPayload.error)
    ensures Get(c, st, key, perCall) == Ok(None) && producerPayload.Ok? ==>
              && r.Ok?
              && r.value.value == produced
              && r.value.producerCalls == 1
              && SetPayload(c, st, key, producerPayload.value, ttl, reply).Ok?
              && r.value.store == SetPayload(c, st, key, producerPayload.value, ttl, reply).value.store
  {
    match Get(c, st, key, perCall)
    case Err(e) => Err(e)
    case Ok(Some(v)) => Ok(Produced(Some(v), st, 0))
    case Ok(None) =>
      match SetSync(c, st, key, producerPayload, ttl, reply)
      case Err(e) => Err(e)
      case Ok(written) => Ok(Produced(produced, written.store, 1))
  }

  // ---------------------------------------------------------------------
  // Hash fields

  /** `HashGet` / `HashGetAsync`: reads one field of the namespaced key
      under the same rule as `Get`. */
  function HashGet<V>(c: Cache<V>, st: Store, key: string, field: string, perCall: Option<SerializerOptions>): (r: Result<Option<V>, CacheError>)
    ensures IsNullOrWhiteSpace(key) ==> r == Err(InvalidArgument)
    ensures !IsNullOrWhiteSpace(key) && (field !in FieldsOf(st, KeyOf(c, key)) || FieldsOf(st, KeyOf(c, key))[field] == "") ==>
              r == Ok(None)
    ensures !IsNullOrWhiteSpace(key) && field in FieldsOf(st, KeyOf(c, key)) && FieldsOf(st, KeyOf(c, key))[field] != "" ==>
              r == Decode(c, perCall, FieldsOf(st, KeyOf(c, key))[field])
  {
    match AddNamespaceToKey(c.namespace, key)
    case Err(e) => Err(e)
    case Ok(pk) => ReadPayload(c, perCall, HashGetField(st, pk, field))
  }

  /** The write half of `HashSet` / `HashSetAsync`, after serialisation: an
      empty payload is refused; otherwise only `field` of the namespaced key
      is written, and the whole key's expiry is reset to `ttl` only when the
      field write answered true and the store applied the expiry. The
      answer is the field write's, whatever the expiry did. */
  function HashSetPayload<V>(c: Cache<V>, st: Store, key: string, field: string, payload: string, ttl: int32 := DefaultExpirationMinutes,
                             reply: WriteReply, expireApplied: bool): (r: Result<Step<bool>, CacheError>)
    ensures payload == "" ==> r == Ok(Step(false, st))
    ensures payload != "" && IsNullOrWhiteSpace(key) ==> r == Err(InvalidArgument)
    ensures payload != "" && !IsNullOrWhiteSpace(key) ==>
              && r.Ok?
              && r.value.result == reply.Flag()
              && r.value.store.strings == st.strings
              && r.value.store.hashes - {KeyOf(c, key)} == st.hashes - {KeyOf(c, key)}
              && (reply.Refused? ==> r.value.store == st)
              && (reply.Stored? ==>
                    && KeyOf(c, key) in r.value.store.hashes
                    && r.value.store.hashes[KeyOf(c, key)].fields == FieldsOf(st, KeyOf(c, key))[field := payload]
                    && r.value.store.hashes[KeyOf(c, key)].ttlMinutes
                         == (if reply.flag && expireApplied then Some(ttl) else TtlOf(st, KeyOf(c, key))))
  {
    if payload == "" then Ok(Step(false, st))
    else
      match AddNamespaceToKey(c.namespace, key)
      case Err(e) => Err(e)
      case Ok(pk) =>
        var written := HashSetField(st, pk, field, payload, reply);
        if written.result then Ok(Step(true, ExpireHash(written.store, pk, ttl, expireApplied)))
        else Ok(written)
  }

  /** `HashSetAsync`: serialise the value, then write the field. A reported
      success is read back by `HashGet` as the decoded payload. */
  function HashSet<V>(c: Cache<V>, st: Store, key: string, field: string, value: Option<V>, ttl: int32 := DefaultExpirationMinutes,
                      perCall: Option<SerializerOptions>, reply: WriteReply, expireApplied: bool): (r: Result<Step<bool>, CacheError>)
    ensures r.Err? <==> Encode(c, perCall, value) != "" && IsNullOrWhiteSpace(key)
    ensures r.Ok? && r.value.result ==>
              HashGet(c, r.value.store, key, field, perCall) == Decode(c, perCall, Encode(c, perCall, value))
    ensures r.Ok? && r.value.result ==> TtlOf(r.value.store, KeyOf(c, key)) == (if expireApplied then Some(ttl) else TtlOf(st, KeyOf(c, key)))
  {
    HashSetPayload(c, st, key, field, Encode(c, perCall, value), ttl, reply, expireApplied)
  }

  /** `HashDeleteAsync`: removes one field of the namespaced key (the key
      goes with its last field) and answers whether the field existed. */
  function HashDelete<V>(c: Cache<V>, st: Store, key: string, field: string): (r: Result<Step<bool>, CacheError>)
    ensures IsNullOrWhiteSpace(key) ==> r == Err(InvalidArgument)
    ensures !IsNullOrWhiteSpace(key) ==>
              && r.Ok?
              && r.value.result == (field in FieldsOf(st, KeyOf(c, key)))
              && r.value.store.strings == st.strings
              && r.value.store.hashes - {KeyOf(c, key)} == st.hashes - {KeyOf(c, key)}
              && FieldsOf(r.value.store, KeyOf(c, key)) == FieldsOf(st, KeyOf(c, key)) - {field}
              && (!r.value.result ==> r.value.store == st)
              && (r.value.result ==> (KeyOf(c, key) in r.value.store.hashes <==> FieldsOf(r.value.store, KeyOf(c, key)) != map[]))
  {
    match AddNamespaceToKey(c.namespace, key)
    case Err(e) => Err(e)
    case Ok(pk) => Ok(HashDeleteField(st, pk, field))
  }

  /** `HashExistsAsync`: whether the namespaced key has the field. */
  function HashExists<V>(c: Cache<V>, st: Store, key: string, field: string): (r: Result<bool, CacheError>)
    ensures IsNullOrWhiteSpace(key) ==> r == Err(InvalidArgument)
    ensures !IsNullOrWhiteSpace(key) ==> r == Ok(KeyOf(c, key) in st.hashes && field in st.hashes[KeyOf(c, key)].fields)
  {
    match AddNamespaceToKey(c.namespace, key)
    case Err(e) => Err(e)
    case Ok(pk) => Ok(HashFieldExists(st, pk, field))
  }

  /** Synchronous `HashDelete` as written: the caller's key goes to the
      store as it is, without the namespace and without the blank-key
      check. */
  function HashDeleteAsWritten(st: Store, key: string, field: string): (r: Step<bool>)
    ensures r.result == (key in st.hashes && field in st.hashes[key].fields)
    ensures r.store.strings == st.strings
    ensures r.store.hashes - {key} == st.hashes - {key}
    ensures FieldsOf(r.store, key) == FieldsOf(st, key) - {field}
  {
    HashDeleteField(st, key, field)
  }

  /** Synchronous `HashExists` as written: looks the field up under the raw
      key. */
  function HashExistsAsWritten(st: Store, key: string, field: string): (r: bool)
    ensures r <==> key in st.hashes && field in st.hashes[key].fields
  {
    HashFieldExists(st, key, field)
  }

  /** `HashGetOrSetAsync`: cache-aside on one field, as `GetOrSet`. */
  function HashGetOrSet<V>(c: Cache<V>, st: Store, key: string, field: string, produced: Option<V>, ttl: int32 := DefaultExpirationMinutes,
                           perCall: Option<SerializerOptions>, reply: WriteReply, expireApplied: bool): (r: Result<Produced<V>, CacheError>)
    ensures HashGet(c, st, key, field, perCall).Err? ==> r == Err(HashGet(c, st, key, field, perCall).error)
    ensures HashGet(c, st, key, field, perCall).Ok? && HashGet(c, st, key, field, perCall).value.Some? ==>
              r == Ok(Produced(HashGet(c, st, key, field, perCall).value, st, 0))
    ensures HashGet(c, st, key, field, perCall) == Ok(None) ==>
              && r.Ok?
              && r.value.value == produced
              && r.value.producerCalls == 1
              && HashSet(c, st, key, field, produced, ttl, perCall, reply, expireApplied).Ok?
              && r.value.store == HashSet(c, st, key, field, produced, ttl, perCall, reply, expireApplied).value.store
  {
    match HashGet(c, st, key, field, perCall)
    case Err(e) => Err(e)
    case Ok(Some(v)) => Ok(Produced(Some(v), st, 0))
    case Ok(None) =>
      var written := HashSet(c, st, key, field, produced, ttl, perCall, reply, expireApplied);
      Ok(Produced(produced, written.value.store, 1))
  }

  /** Synchronous `HashSet` as written: the delegate is serialised first,
      as for `SetSync`; a refusal fails the call even for a blank key, and a
      payload it did produce is written to the field as `HashSetAsync`
      writes its serialisation, with the same expiry rule. */
  function HashSetSync<V>(c: Cache<V>, st: Store, key: string, field: string, producerPayload: Result<string, CacheError>,
                          ttl: int32 := DefaultExpirationMinutes, reply: WriteReply, expireApplied: bool): (r: Result<Step<bool>, CacheError>)
    ensures producerPayload.Err? ==> r == Err(producerPayload.error)
    ensures r.Err? <==> producerPayload.Err? || (producerPayload.value != "" && IsNullOrWhiteSpace(key))
    ensures r.Err? && producerPayload.Ok? ==> r.error == InvalidArgument
    ensures r.Ok? && r.value.result ==>
              && KeyOf(c, key) in r.value.store.hashes
              && FieldsOf(r.value.store, KeyOf(c, key)) == FieldsOf(st, KeyOf(c, key))[field := producerPayload.value]
              && TtlOf(r.value.store, KeyOf(c, key)) == (if expireApplied then Some(ttl) else TtlOf(st, KeyOf(c, key)))
              && r.value.store.strings == st.strings
    ensures r.Ok? && !r.value.result && reply.Refused? ==> r.value.store == st
    ensures r.Ok? && reply == Stored(false) && producerPayload.value != "" ==>
              && !r.value.result
              && KeyOf(c, key) in r.value.store.hashes
              && FieldsOf(r.value.store, KeyOf(c, key)) == FieldsOf(st, KeyOf(c, key))[field := producerPayload.value]
              && TtlOf(r.value.store, KeyOf(c, key)) == TtlOf(st, KeyOf(c, key))
    ensures r.Ok? ==> && r.value.store.strings == st.strings
                      && r.value.store.hashes - {KeyOf(c, key)} == st.hashes - {KeyOf(c, key)}
    ensures producerPayload.Ok? ==> r == HashSetPayload(c, st, key, field, producerPayload.value, ttl, reply, expireApplied)
  {
    match producerPayload
    case Err(e) => Err(e)
    case Ok(payload) => HashSetPayload(c, st, key, field, payload, ttl, reply, expireApplied)
  }

  /** Synchronous `HashGetOrSet` as written: on a miss it hands the
      producer delegate to `HashSetSync`, whose serialisation of it is
      `producerPayload`, as for `GetOrSetSync`. */
  function HashGetOrSetSync<V>(c: Cache<V>, st: Store, key: string, field: string, produced: Option<V>, producerPayload: Result<string, CacheError>,
                               ttl: int32 := DefaultExpirationMinutes, perCall: Option<SerializerOptions>, reply: WriteReply, expireApplied: bool): (r: Result<Produced<V>, CacheError>)
    ensures HashGet(c, st, key, field, perCall).Err? ==> r == Err(HashGet(c, st, key, field, perCall).error)
    ensures HashGet(c, st, key, field, perCall).Ok? && HashGet(c, st, key, field, perCall).value.Some? ==>
              r == Ok(Produced(HashGet(c, st, key, field, perCall).value, st, 0))
    ensures HashGet(c, st, key, field, perCall) == Ok(None) && producerPayload.Err? ==> r == Err(producerPayload.error)
    ensures HashGet(c, st, key, field, perCall) == Ok(None) && producerPayload.Ok? ==>
              && r.Ok?
              && r.value.value == produced
              && r.value.producerCalls == 1
              && HashSetPayload(c, st, key, field, producerPayload.value, ttl, reply, expireApplied).Ok?
              && r.value.store == HashSetPayload(c, st, key, field, producerPayload.value, ttl, reply, expireApplied).value.store
  {
    match HashGet(c, st, key, field, perCall)
    case Err(e) => Err(e)
    case Ok(Some(v)) => Ok(Produced(Some(v), st, 0))
    case Ok(None) =>
      match HashSetSync(c, st, key, field, producerPayload, ttl, reply, expireApplied)
      case Err(e) => Err(e)
      case Ok(written) => Ok(Produced(produced, written.store, 1))
  }
}

=== FILE: registration.dfy ===
/** `ServiceCollectionExtensions`: how the two `AddRedisCache` overloads
    assemble the `RedisOptions` they register. The container itself is not
    modelled: a registration is the options it would hand to the cache, or
    the exception that stops it. */
module ServiceCollectionExtensions {
  import opened Wrappers
  import opened Primitives
  import opened Text
  import opened Serialization
  import opened Configuration

  /** The domain appended to the environment name. */
  const DomainSuffix: string := ".ares.com"

  /** The default of the `databaseNumber` parameter. */
  const DefaultDatabaseNumber: int32 := 0

  /** The namespace of an environment: its name lower-cased, then the
      domain. */
  function DeriveNamespace(environmentName: string): (ns: string)
    ensures |ns| == |environmentName| + |DomainSuffix|
    ensures ns[|environmentName|..] == DomainSuffix
    ensures EqualIgnoringCase(ns[..|environmentName|], environmentName)
    ensures forall i :: 0 <= i < |environmentName| ==> !IsAsciiUpper(ns[i])
  {
    ToLower(environmentName) + DomainSuffix
  }

  /** The configuration the environment overload serialises. */
  function DefaultConfiguration(): RedisConfiguration {
    RedisConfiguration(
      hostAndPorts := Some("localhost:6379"),
      password := None,
      allowAdmin := true,
      connectRetry := 3,
      connectTimeout := 10000,
      keepAlive := 0,
      syncTimeout := 0,
      isCluster := false)
  }

  /** `new RedisOptions()`. */
  function FreshOptions(): RedisOptions {
    RedisOptions(configuration := None, namespace := None, databaseNumber := 0, serializerOptions := Some(CacheDefaults))
  }

  /** `string.IsNullOrEmpty`. */
  predicate IsNullOrEmpty(s: Option<string>) {
    s.None? || s.value == ""
  }

  /** `AddRedisCache(environmentName, databaseNumber)`: the serialised
      default configuration, the derived namespace and the database number
      as given; an empty serialisation throws and registers nothing. The
      JSON serialiser is the parameter `serializeConfiguration`. */
  function AddRedisCache(environmentName: string, databaseNumber: int32 := DefaultDatabaseNumber,
                         serializeConfiguration: RedisConfiguration -> string): (r: Result<RedisOptions, CacheError>)
    ensures r.Err? <==> serializeConfiguration(DefaultConfiguration()) == ""
    ensures r.Err? ==> r.error == InvalidArgument
    ensures r.Ok? ==> && r.value.configuration == Some(serializeConfiguration(DefaultConfiguration()))
                      && r.value.namespace == Some(DeriveNamespace(environmentName))
                      && r.value.databaseNumber == databaseNumber
                      && r.value.serializerOptions == Some(CacheDefaults)
  {
    var options := FreshOptions().(
      configuration := Some(serializeConfiguration(DefaultConfiguration())),
      namespace := Some(DeriveNamespace(environmentName)),
      databaseNumber := databaseNumber);
    if IsNullOrEmpty(options.configuration) then Err(InvalidArgument) else Ok(options)
  }

  /** `AddRedisCache(Action<RedisOptions>)`: the caller's callback fills a
      fresh `RedisOptions`, and the check sees what the callback left; a
      null or empty configuration throws and registers nothing. */
  function AddRedisCacheWith(configure: RedisOptions -> RedisOptions): (r: Result<RedisOptions, CacheError>)
    ensures r.Err? <==> IsNullOrEmpty(configure(FreshOptions()).configuration)
    ensures r.Err? ==> r.error == InvalidArgument
    ensures r.Ok? ==> r.value == configure(FreshOptions())
  {
    var options := configure(FreshOptions());
    if IsNullOrEmpty(options.configuration) then Err(InvalidArgument) else Ok(options)
  }
}

=== FILE: serialization.dfy ===
/** The value codec: `System.Text.Json` is not modelled; it appears as a
    pair of functions the cache is given, and its options as data. */
module Serialization {
  import opened Wrappers

  /** The two options the code sets on a `JsonSerializerOptions`. */
  datatype SerializerOptions = SerializerOptions(ignoreNullValues: bool, propertyNameCaseInsensitive: bool)

  /** What the serialiser uses when handed null options. */
  const LibraryDefaults := SerializerOptions(false, false)

  /** `RedisOptions.SerializerOptions` until a caller replaces it. */
  const CacheDefaults := SerializerOptions(true, false)

  /** A JSON engine for values of type `V`; `None` is the C# null.
      `deserialize` fails with the exception's message on a malformed
      payload. */
  datatype Json<!V> = Json(
    serialize: (SerializerOptions, Option<V>) -> string,
    deserialize: (SerializerOptions, string) -> Result<Option<V>, string>)

  /** `perCall ?? configured`, and the library defaults when both are null. */
  function EffectiveOptions(perCall: Option<SerializerOptions>, configured: Option<SerializerOptions>): SerializerOptions {
    perCall.GetOr(configured.GetOr(LibraryDefaults))
  }

  /** `value` has a non-empty payload that decodes back to it. */
  ghost predicate RoundTrips<V>(json: Json<V>, options: SerializerOptions, value: Option<V>) {
    json.serialize(options, value) != ""
    && json.deserialize(options, json.serialize(options, value)) == Ok(value)
  }
}

=== FILE: store.dfy ===
/** The backing store, in memory: a map of string values and a map of hash
    values, each with its expiry in minutes. The answers a real server gives
    to writes are not derived here; they are passed in as `WriteReply`. */
module RedisStore {
  import opened Wrappers
  import opened Primitives

  datatype StringEntry = StringEntry(payload: string, ttlMinutes: int32)

  /** A hash key: its fields and, once an expiry was set, its TTL. */
  datatype HashEntry = HashEntry(fields: map<string, string>, ttlMinutes: Option<int32>)

  datatype Store = Store(strings: map<string, StringEntry>, hashes: map<string, HashEntry>)

  const EmptyStore := Store(map[], map[])

  /** The store's answer to a write: it applied the write and answered
      `flag` (for HSET, true when the field is new), or it refused it. */
  datatype WriteReply = Stored(flag: bool) | Refused {
    function Flag(): bool {
      match this
      case Stored(f) => f
      case Refused => false
    }
  }

  /** A command's answer together with the store after it. */
  datatype Step<T> = Step(result: T, store: Store)

  function StringGet(st: Store, pk: string): Option<string> {
    if pk in st.strings then Some(st.strings[pk].payload) else None
  }

  function StringSet(st: Store, pk: string, payload: string, ttl: int32, reply: WriteReply): Step<bool> {
    if reply.Stored? then
      Step(reply.flag, st.(strings := st.strings[pk := StringEntry(payload, ttl)]))
    else
      Step(false, st)
  }

  predicate KeyExists(st: Store, pk: string) {
    pk in st.strings || pk in st.hashes
  }

  function KeyDelete(st: Store, pk: string): Step<bool> {
    Step(KeyExists(st, pk), Store(st.strings - {pk}, st.hashes - {pk}))
  }

  function FieldsOf(st: Store, pk: string): map<string, string> {
    if pk in st.hashes then st.hashes[pk].fields else map[]
  }

  function TtlOf(st: Store, pk: string): Option<int32> {
    if pk in st.hashes then st.hashes[pk].ttlMinutes else None
  }

  function HashGetField(st: Store, pk: string, field: string): Option<string> {
    if field in FieldsOf(st, pk) then Some(FieldsOf(st, pk)[field]) else None
  }

  /** HSET: writes one field and keeps the key's expiry. */
  function HashSetField(st: Store, pk: string, field: string, payload: string, reply: WriteReply): Step<bool> {
    if reply.Stored? then
      var entry := HashEntry(FieldsOf(st, pk)[field := payload], TtlOf(st, pk));
      Step(reply.flag, st.(hashes := st.hashes[pk := entry]))
    else
      Step(false, st)
  }

  /** EXPIRE on a key the cache has just written as a hash; `applied` is
      the store's answer. */
  function ExpireHash(st: Store, pk: string, ttl: int32, applied: bool): Store {
    if applied && pk in st.hashes then
      st.(hashes := st.hashes[pk := st.hashes[pk].(ttlMinutes := Some(ttl))])
    else
      st
  }

  /** HDEL: removes one field; the key disappears with its last field. */
  function HashDeleteField(st: Store, pk: string, field: string): Step<bool> {
    if field in FieldsOf(st, pk) then
      var rest := FieldsOf(st, pk) - {field};
      var hashes := if rest == map[] then st.hashes - {pk} else st.hashes[pk := st.hashes[pk].(fields := rest)];
      Step(true, st.(hashes := hashes))
    else
      Step(false, st)
  }

  predicate HashFieldExists(st: Store, pk: string, field: string) {
    field in FieldsOf(st, pk)
  }
}

=== FILE: text.dfy ===
/** The handful of `System.String` operations the cache uses: whitespace
    tests, `Trim`, `Split(char)` and ASCII lower-casing. */
module Text {

  /** `char.IsWhiteSpace`: the characters with the Unicode White_Space
      property, which is also the set `String.Trim()` removes. */
  predicate IsWhiteSpace(c: char) {
    || ('\U{9}' <= c <= '\U{D}')
    || c == ' '
    || c == '\U{85}'
    || c == '\U{A0}'
    || c == '\U{1680}'
    || ('\U{2000}' <= c <= '\U{200A}')
    || c == '\U{2028}'
    || c == '\U{2029}'
    || c == '\U{202F}'
    || c == '\U{205F}'
    || c == '\U{3000}'
  }

  /** `string.IsNullOrWhiteSpace` for a non-null string: empty, or nothing
      but whitespace. */
  predicate IsNullOrWhiteSpace(s: string) {
    forall i :: 0 <= i < |s| ==> IsWhiteSpace(s[i])
  }

  /** Neither starts nor ends with whitespace: what `Trim` leaves. */
  predicate IsTrimmed(s: string) {
    s == [] || (!IsWhiteSpace(s[0]) && !IsWhiteSpace(s[|s| - 1]))
  }

  /** `String.TrimStart()`: the longest suffix that does not start with
      whitespace; everything cut off is whitespace. */
  function TrimStart(s: string): (r: string)
    ensures |r| <= |s| && r == s[|s| - |r|..]
    ensures IsNullOrWhiteSpace(s[..|s| - |r|])
    ensures r == [] || !IsWhiteSpace(r[0])
  {
    if |s| > 0 && IsWhiteSpace(s[0]) then
      var r := TrimStart(s[1..]);
      assert s[..|s| - |r|] == [s[0]] + s[1..][..|s| - 1 - |r|];
      r
    else
      s
  }

  /** `String.TrimEnd()`: the longest prefix that does not end with
      whitespace; everything cut off is whitespace. */
  function TrimEnd(s: string): (r: string)
    ensures |r| <= |s| && r == s[..|r|]
    ensures IsNullOrWhiteSpace(s[|r|..])
    ensures r == [] || !IsWhiteSpace(r[|r| - 1])
  {
    if |s| > 0 && IsWhiteSpace(s[|s| - 1]) then
      var r := TrimEnd(s[..|s| - 1]);
      assert s[|r|..] == s[..|s| - 1][|r|..] + [s[|s| - 1]];
      r
    else
      s
  }

  /** `String.Trim()`: whitespace cut off both ends of `s`; the result is
      not padded and uses only characters of `s` (`TrimCutsPadding` locates
      it in `s`). */
  function Trim(s: string): (r: string)
    ensures IsTrimmed(r)
    ensures |r| <= |s| && forall c :: c in r ==> c in s
  {
    var t := TrimStart(s);
    var r := TrimEnd(t);
    assert r != [] ==> r[0] == t[0];
    r
  }

  /** `Trim(s)` is a contiguous piece of `s` with only whitespace before and
      after it. */
  lemma TrimCutsPadding(s: string)
    ensures exists i :: 0 <= i <= |s| - |Trim(s)| && Trim(s) == s[i..i + |Trim(s)|]
                       && IsNullOrWhiteSpace(s[..i]) && IsNullOrWhiteSpace(s[i + |Trim(s)|..])
  {
    var t := TrimStart(s);
    var i := |s| - |t|;
    TrimEndIsPiece(s, t, i);
    assert Trim(s) == TrimEnd(t);
    assert IsNullOrWhiteSpace(s[..i]);
  }

  /** Trimming the end of the suffix `t` of `s` that starts at `i` leaves the
      piece of `s` at `i`, followed in `s` by whitespace only. */
  lemma TrimEndIsPiece(s: string, t: string, i: nat)
    requires i <= |s| && t == s[i..]
    ensures var r := TrimEnd(t);
            i + |r| <= |s| && r == s[i..i + |r|] && IsNullOrWhiteSpace(s[i + |r|..])
  {
    var r := TrimEnd(t);
    assert s[i + |r|..] == t[|r|..];
  }

  /** `TrimStart` cuts exactly a whitespace prefix in front of a string that
      does not start with whitespace. */
  lemma {:induction false} TrimStartOfPadded(before: string, rest: string)
    requires IsNullOrWhiteSpace(before)
    requires rest == [] || !IsWhiteSpace(rest[0])
    ensures TrimStart(before + rest) == rest
    decreases |before|
  {
    if before == [] {
      assert before + rest == rest;
    } else {
      var s := before + rest;
      assert s[0] == before[0];
      assert s[1..] == before[1..] + rest;
      TrimStartOfPadded(before[1..], rest);
    }
  }

  /** `TrimEnd` cuts exactly a whitespace suffix behind a string that does
      not end with whitespace. */
  lemma {:induction false} TrimEndOfPadded(rest: string, after: string)
    requires IsNullOrWhiteSpace(after)
    requires rest == [] || !IsWhiteSpace(rest[|rest| - 1])
    ensures TrimEnd(rest + after) == rest
    decreases |after|
  {
    if after == [] {
      assert rest + after == rest;
    } else {
      var s := rest + after;
      var n := |after| - 1;
      assert s[|s| - 1] == after[n];
      assert s[..|s| - 1] == rest + after[..n];
      TrimEndOfPadded(rest, after[..n]);
    }
  }

  /** Trimming removes exactly the padding from `before + core + after`:
      `Trim` is determined by its contract. */
  lemma TrimOfPadded(before: string, core: string, after: string)
    requires IsNullOrWhiteSpace(before) && IsNullOrWhiteSpace(after)
    requires IsTrimmed(core)
    ensures Trim(before + core + after) == core
  {
    if core == [] {
      assert before + core + after == before + after;
      TrimStartOfPadded(before + after, []);
      assert before + after == before + after + [];
    } else {
      assert before + core + after == before + (core + after);
      TrimStartOfPadded(before, core + after);
      TrimEndOfPadded(core, after);
    }
  }

  /** `Trim` gives the empty string exactly for blank input. */
  lemma TrimEmptyIffBlank(s: string)
    ensures Trim(s) == [] <==> IsNullOrWhiteSpace(s)
  {
    var t := TrimStart(s);
    if IsNullOrWhiteSpace(s) {
      assert s + [] == s;
      TrimStartOfPadded(s, []);
    }
    if Trim(s) == [] {
      assert TrimEnd(t) == [] && t[0..] == t;
      assert t == [];
      assert s[..|s|] == s;
    }
  }

  /** A single leading space is removed from an unpadded string. */
  lemma TrimAfterSpace(s: string)
    requires IsTrimmed(s)
    ensures Trim([' '] + s) == s
  {
    assert IsNullOrWhiteSpace([' ']);
    assert [' '] + s + [] == [' '] + s;
    TrimOfPadded([' '], s, []);
  }

  /** Trimming twice is trimming once. */
  lemma TrimIdempotent(s: string)
    ensures Trim(Trim(s)) == Trim(s)
  {
    var r := Trim(s);
    assert TrimStart(r) == r;
    assert TrimEnd(r) == r;
  }

  /** The first occurrence of `c` in `s`. */
  function IndexOf(s: string, c: char): (i: nat)
    requires c in s
    ensures i < |s| && s[i] == c && c !in s[..i]
  {
    if s[0] == c then 0
    else
      var j := IndexOf(s[1..], c);
      assert s[..j + 1] == [s[0]] + s[1..][..j];
      j + 1
  }

  /** `String.Split(char)`: the pieces between occurrences of `sep`, in
      order. There is always one more piece than there are separators, and
      no piece contains the separator. */
  function Split(s: string, sep: char): (parts: seq<string>)
    ensures |parts| == multiset(s)[sep] + 1
    ensures forall i :: 0 <= i < |parts| ==> sep !in parts[i]
    decreases |s|
  {
    if sep !in s then
      assert multiset(s)[sep] == 0;
      [s]
    else
      var i := IndexOf(s, sep);
      var piece, tail := s[..i], s[i + 1..];
      assert s == piece + [sep] + tail;
      assert multiset(piece)[sep] == 0;
      assert multiset(s)[sep] == multiset(piece)[sep] + 1 + multiset(tail)[sep];
      [piece] + Split(tail, sep)
  }

  /** `String.Join(char, parts)`: the inverse of `Split`. */
  function Join(parts: seq<string>, sep: char): string
    requires |parts| > 0
  {
    if |parts| == 1 then parts[0] else parts[0] + [sep] + Join(parts[1..], sep)
  }

  /** Joining the pieces of a split restores the string. */
  lemma {:induction false} JoinSplit(s: string, sep: char)
    ensures Join(Split(s, sep), sep) == s
    decreases |s|
  {
    if sep in s {
      var i := IndexOf(s, sep);
      JoinSplit(s[i + 1..], sep);
      assert s == s[..i] + [sep] + s[i + 1..];
    }
  }

  /** The first separator in `p + [c] + rest` is the one after `p` when `p`
      has none. */
  lemma {:induction false} IndexOfAfter(p: string, c: char, rest: string)
    requires c !in p
    ensures IndexOf(p + [c] + rest, c) == |p|
    decreases |p|
  {
    var s := p + [c] + rest;
    if p != [] {
      assert s[0] == p[0];
      assert s[1..] == p[1..] + [c] + rest;
      IndexOfAfter(p[1..], c, rest);
    }
  }

  /** Splitting a join of separator-free pieces gives the pieces back. */
  lemma {:induction false} SplitJoin(parts: seq<string>, sep: char)
    requires |parts| > 0
    requires forall i :: 0 <= i < |parts| ==> sep !in parts[i]
    ensures Split(Join(parts, sep), sep) == parts
  {
    if |parts| > 1 {
      var p := parts[0];
      var rest := Join(parts[1..], sep);
      var s := p + [sep] + rest;
      assert s[|p|] == sep;
      IndexOfAfter(p, sep, rest);
      assert s[..|p|] == p;
      assert s[|p| + 1..] == rest;
      assert Split(s, sep) == [p] + Split(rest, sep);
      SplitJoin(parts[1..], sep);
      assert parts == [p] + parts[1..];
    }
  }

  /** Every character of a piece occurs in the join. */
  lemma {:induction false} PieceInJoin(parts: seq<string>, sep: char, i: nat)
    requires |parts| > 0 && i < |parts|
    ensures forall c :: c in parts[i] ==> c in Join(parts, sep)
  {
    if |parts| > 1 {
      if i > 0 {
        PieceInJoin(parts[1..], sep, i - 1);
      }
    }
  }

  predicate IsAsciiUpper(c: char) {
    'A' <= c <= 'Z'
  }

  /** ASCII case folding of one character. */
  function ToLowerChar(c: char): char {
    if IsAsciiUpper(c) then (c as int + 32) as char else c
  }

  /** Same text up to ASCII case. */
  predicate EqualIgnoringCase(a: string, b: string) {
    |a| == |b| && forall i :: 0 <= i < |a| ==> ToLowerChar(a[i]) == ToLowerChar(b[i])
  }

  /** `String.ToLower()`, restricted to ASCII: no upper-case letter is left,
      the text is unchanged up to case, and non-upper-case characters are
      untouched. */
  function ToLower(s: string): (r: string)
    ensures EqualIgnoringCase(r, s)
    ensures forall i :: 0 <= i < |r| ==> !IsAsciiUpper(r[i])
    ensures forall i :: 0 <= i < |s| && !IsAsciiUpper(s[i]) ==> r[i] == s[i]
  {
    seq(|s|, i requires 0 <= i < |s| => ToLowerChar(s[i]))
  }

  /** Lower-casing is idempotent. */
  lemma ToLowerIdempotent(s: string)
    ensures ToLower(ToLower(s)) == ToLower(s)
  {
  }
}

=== FILE: wrappers.dfy ===
/** Result and option types: `Option` stands for a C# reference that may be
    null, `Result` for a call that either returns or throws. */
module Wrappers {

  datatype Option<+T> = None | Some(value: T) {

    /** The value, or `default` when this is null (C#'s `??`). */
    function GetOr(default: T): T {
      match this
      case Some(v) => v
      case None => default
    }
  }

  datatype Result<+T, +E> = Ok(value: T) | Err(error: E)
}

/** The .NET primitives the cache relies on. */
module Primitives {

  /** C#'s `int`. Nothing in the model does arithmetic on it, so no
      wrap-around has to be written out. */
  newtype int32 = x: int | -0x8000_0000 <= x < 0x8000_0000

  /** The exceptions the cache lets escape, by .NET exception kind. */
  datatype CacheError =
    | InvalidArgument          // ArgumentException (and ArgumentNullException)
    | NullReference            // NullReferenceException on a missing value
    | MalformedJson(message: string)  // JsonException from the deserialiser
    | NotSupported             // NotSupportedException from the serialiser
}
